=== FILE: README.md ===
# Table statement builder (massive-js `lib/table.js`)

This project is a Dafny model of the `Table` object of massive-js. A `Table`
is a schema-qualified PostgreSQL table with a primary key. Each of its
operations (`find`, `findOne`, `count`, `where`, `insert`, `update`,
`save`, `destroy`, `search`) assembles SQL text and an ordered parameter
list, then hands both to the connection (`db.query`). The model stops at
that hand-off. Each operation yields a `Statement(sql, params, single)` or
the synchronous failure it raises first.

Modules:

- `Js`: JavaScript values. An object is an ordered list of key/value
  pairs, because key order decides column and parameter order. The module
  also defines truthiness, `_.isObject`, `_.isEmpty`, `_.keys`,
  `_.values`, property get/set/delete, `String(v)` and `_.flatten`.
  `EachEntries` gives the pairs `_.each` and `_.map` visit. These are the
  own properties, except for an object with a numeric `length`, which is
  walked like an array over the indices 0 .. length-1. The
  class `Js.Ref` holds an object that a callee changes in place and the
  caller then sees.
- `Text`: digits, `String(n)`, `Array.prototype.join`,
  `util.format('"%s"', s)` quoting, and splitting.
- `Sql`: the statement triple and the error kinds. It also has a reading
  of placeholders out of SQL text: a `$` followed by a maximal run of
  digits. The reading is conservative. It also counts a `$n` inside
  quotes or inside a name such as `a$1`, which PostgreSQL would not treat
  as a parameter. So the statements about placeholders require the names
  around them to hold no `$`. `Consistent(st)` says that the statement's
  placeholders are exactly `$1 ... $N`, in order, where N is the number
  of parameters it binds.
- `Identity`: `fullname` and `delimitedFullName`.
- `Select`, `Insert`, `Update`, `Search`: the statement each operation
  builds, written as a function. The module also holds the lemmas about
  that statement.
- `Tables`: the `Table` class. Its constructor fixes the identity fields.
  Its methods follow the source step by step:
  - the loops of `insert` and `update` with their running `seed`;
  - `find` writing defaults into the caller's options object;
  - `save` deleting the key from the caller's object;
  - `search` rewriting the caller's `columns`.

  Each method is proved equal to the statement function of its module.

`Where.forTable` is a parameter `forTable: Value -> Condition` and
`isUUID` is a parameter `isUuid: Value -> bool`. Their code is not part of
this model. The argument records that `ArgTypes.findArgs` and
`ArgTypes.whereArgs` produce are passed in directly: the conditions, the
options object and the `{where, params}` condition.

## Model

| member | source | states |
|---|---|---|
| `Tables.Table.constructor` | lib/table.js:10-30 | fixes schema, name and pk. `fullname`, `delimitedName`, `delimitedSchema` and `delimitedFullName` agree with `FullName`/`Quote`/`DelimitedFullName` (`Valid`): the schema appears only when it is not `public`. |
| `Identity.DelimitedFullNameRoundTrip` | lib/table.js:22-30 | for identifiers without `"`, each identifier is quoted exactly once. Stripping one layer of quotes from `delimitedFullName` gives back the schema (none for `public`) and the table name. |
| `Identity.DelimitedNameCollision` | lib/table.js:23-24 | as written, the table `x"."y` in `public` and the table `y` in schema `x` get the same delimited name, although their display names differ. |
| `Text.EscapeQuotes` | lib/table.js:23-24 | doubling embedded quotes never shortens an identifier, and leaves a quote-free identifier unchanged. |
| `Text.QuoteEscaped` | lib/table.js:23-24 | the corrected quoting agrees with the written `"\"" + s + "\""` on quote-free identifiers. |
| `Text.ReadQuotedBodyEscape` | lib/table.js:23-24 | reading an escaped identifier stops at its closing quote and gives back the identifier and the text after it, whatever quotes the identifier holds. |
| `Identity.CorrectedDelimitedFullName` | lib/table.js:22-30 | the delimited name with embedded quotes doubled agrees with `delimitedFullName` when neither identifier holds `"`. |
| `Identity.CorrectedDelimitedFullNameRoundTrip` | lib/table.js:22-30 | every schema and table name, quotes included, reads back from the corrected delimited name (no schema for `public`). |
| `Identity.CorrectedDelimitedFullNameInjective` | lib/table.js:22-30 | two tables with the same corrected delimited name have the same schema and name. |
| `Identity.DelimitedFullNameQuotesFullName` | lib/table.js:16-30 | for dot-free identifiers, `delimitedFullName` is `fullname` with each dot-separated part quoted. |
| `Tables.Table.DelimitedPrimaryKeyName` | lib/table.js:153-155 | for a key without `"`, the delimited key unquotes back to `primaryKeyName()`. It never equals the key. |
| `Tables.Table.ContainsPk` | lib/table.js:156-159 | true iff some own key of `args` is the primary key or the delimited primary key. |
| `Tables.Table.PlainDelimitedName` | lib/table.js:22-30 | a valid table whose schema and name hold no `$` has a delimited name without `$`, as the placeholder statements of `count`, `where` and `destroy` require. |
| `Tables.Table.ContainsPkWhenSet` | lib/table.js:156-159 | a value whose `pk` property reads as defined contains the primary key. |
| `Tables.Table.Count` | lib/table.js:51-59 | the COUNT statement binds the condition's params, asks for a single row, and adds no placeholder beyond those of the condition text. |
| `Tables.Table.Where` | lib/table.js:63-68 | the inline-condition SELECT binds the condition's params, passes no options, and adds no placeholder of its own. |
| `Tables.Table.Destroy` | lib/table.js:176-183 | fails the assertion iff the criteria are not an object. Otherwise it binds exactly `forTable(criteria).params`, and its placeholders are those of the WHERE text. |
| `Tables.Table.FillDefaults` | lib/table.js:74-78 | undefined or null options raise a TypeError and are left as they were. Any other options object becomes `WithDefaults` of what it was. |
| `Select.WithDefaultsGet` | lib/table.js:74-78 | each of order, limit, offset and columns keeps a truthy value the caller gave and otherwise gets `"pk"`, `"1000"`, `"0"` or `"*"`. Every other option is unchanged. |
| `Select.EmptyOptionsDefaults` | lib/table.js:74-78 | empty options default to order `"pk"`, limit `1000`, offset `0` and columns `*`. |
| `Select.FindStatement` | lib/table.js:70-111 | the single flag is set iff the conditions are a number or a UUID. Parameters are undefined iff the compiled criteria are empty, and otherwise are `forTable(criteria).params`. |
| `Tables.Table.Find` | lib/table.js:70-111 | a TypeError for undefined or null options (`FindResult`). Otherwise it writes the defaults into the caller's options object and returns `FindStatement` of the original options. |
| `Tables.Table.SelectWith` | lib/table.js:88-110 | from the defaulted options it builds `FindStatement` of the caller's original options. This covers the column list, the order, limit and offset text, the primary-key rewrite of a number or UUID, and the WHERE clause with its parameters. |
| `Select.FindLayout` | lib/table.js:86-109 | the SQL is `select cols from dfn where order by .. limit .. offset ..`. An array of columns is joined with `,`. Each missing option is replaced by its default. |
| `Select.OptionText` | lib/table.js:95-97 | the order, limit and offset texts are the caller's truthy option or its default. |
| `Select.ColumnsOfDefaults` | lib/table.js:88-94 | the select list is the columns array joined with `,`, the caller's truthy value, or `*`. |
| `Select.FindDefaultLayout` | lib/table.js:74-109 | with no options, the SQL selects `*`, orders by `"pk"` and uses limit 1000 and offset 0. |
| `Select.FindPrimaryKeyShortcut` | lib/table.js:99-105 | `find(v)` for a number or UUID `v` is `find({pk: v})` with `single = true`, while `find({pk: v})` itself has `single = false`. |
| `Select.SelectPlaceholders` | lib/table.js:109 | the SELECT's placeholders are those of its WHERE text when the other clauses hold no `$`. |
| `Select.FindConsistentIff` | lib/table.js:107-110 | a find statement is consistent iff the criteria are empty or the compiled criteria are themselves consistent (`$1..$n` for n params). |
| `Select.FindOneCallbackOnly` | lib/table.js:36-40 | `findOne(callback)` asks `find` for every row, as a list, with the default paging: WHERE text `" "` and no parameters. |
| `Select.FindOneResult` | lib/table.js:40-46 | an error gives `(err, null)`. Otherwise a non-empty array gives its first element, and any other result, an empty array included, passes through. |
| `Select.FindOneOfRows` | lib/table.js:44 | over a list of row objects, `findOne` yields the first row, or the empty list when there are no rows. It never yields a non-empty list. |
| `Select.FindOneNoMatch` | lib/table.js:40-46 | `findOne({pk: v})` asks for a list, so when no row matches, the callback receives the empty list rather than undefined. |
| `Select.CorrectedFindOneOfRows` | lib/table.js:44 | with the correction, a list of rows reduces to its first row, or to undefined when there are none. It is never a list. |
| `Select.CorrectedFindOneAgrees` | lib/table.js:41-45 | the corrected reduction differs from the written one exactly on an empty list without an error. |
| `Tables.Table.FindOne` | lib/table.js:35-48 | sends `find` with fresh empty options and the adjusted conditions, and replies with `FindOneResult`. |
| `Insert.ColumnNames` | lib/table.js:118 | one quoted column per own key of the first row (none for an empty array). |
| `Insert.InsertStatement` | lib/table.js:114-130 | throws iff `data` is falsy. Otherwise it asks for a single row and passes a parameter array. |
| `Tables.NumberFields` | lib/table.js:122-123 | the inner map yields `$seed+1 .. $seed+n`, and the seed advances by n. n is the number of properties `_.map` visits. |
| `Tables.Table.Insert` | lib/table.js:114-130 | the `for` loop with its running seed builds exactly `InsertStatement`. |
| `Insert.TuplesPerRow` | lib/table.js:122-127 | row i emits one tuple numbered after the fields of all earlier rows. Fields are counted as `_.map` visits them. |
| `Insert.TuplePlaceholders` | lib/table.js:123-124 | a tuple holds exactly the placeholders it numbers, in order. |
| `Insert.TuplesJoinPlaceholders` | lib/table.js:127 | the joined tuples hold `$1 .. $N` in row-major order, where N is the field count over all rows. |
| `Insert.InsertPlaceholders` | lib/table.js:118-128 | the whole INSERT text holds `$1 .. $N`, contiguous in row-major order. |
| `Insert.RowMajorValuesLength` | lib/table.js:122-126 | when no row is array-like, the row-major values are exactly as many as the placeholders the tuples number. |
| `Insert.RowMajorValuesAt` | lib/table.js:122-126 | when no row is array-like, placeholder number (fields before row i) + j + 1 corresponds to field j of row i. |
| `Insert.CorrectedInsertStatement` | lib/table.js:129 | the insert with parameters flattened one level, asking for all rows when `data` is an array: throws iff `data` is falsy, and otherwise `single` is false iff `data` is an array. |
| `Insert.CorrectedInsertConsistent` | lib/table.js:114-130 | every non-throwing insert with parameters flattened one level and no array-like row is consistent. |
| `Insert.FlattenRowValuesScalars` | lib/table.js:125-129 | when no field value is an array, `_.flatten` of the per-row value arrays is the row-major list of values. |
| `Insert.InsertScalarsAsCorrected` | lib/table.js:129 | for rows without array-valued fields, the statement as written equals the corrected one except for `single`, which the corrected one sets to "not an array". A falsy `data` gives the same error in both. |
| `Insert.InsertScalarsConsistent` | lib/table.js:114-130 | an insert of rows that are not array-like and have no array-valued fields binds `$1..$N` one-to-one to N parameters. |
| `Insert.InsertArrayFieldMismatch` | test/table_spec.js:193-199 | inserting `{name, tags: ['one','two']}` as written yields placeholders `$1, $2` but three parameters, so it is not consistent. |
| `Insert.InsertLengthMismatch` | lib/table.js:123-125 | inserting `{name: "x", length: 3}` as written numbers the tuple `$1, $2, $3` from the `length` that `_.map` follows, but binds only the two values `_.values` gives. |
| `Insert.InsertTwoRows` | test/table_spec.js:183-190 | the two-product insert reads `INSERT INTO "products" ("name") VALUES\n($1),\n($2) RETURNING *` and binds the two names in row order. As written it asks for a single row (line 129). |
| `Insert.CorrectedInsertTwoRows` | test/table_spec.js:183-190 | the corrected two-product insert has the same text and parameters but asks for all rows, as the test expects two back. |
| `Update.SetItemPlaceholders` | lib/table.js:139 | the item `"key" = $n` holds exactly the placeholder n when the key holds no `$`. |
| `Update.UpdateStatement` | lib/table.js:132-148 | throws iff `fields` is not an object. Otherwise the parameters are exactly the values `_.each` visits, in that order, and no options are passed. |
| `Tables.Table.Update` | lib/table.js:132-148 | the `_.each` loop with its running seed builds exactly `UpdateStatement`. |
| `Tables.Table.EachField` | lib/table.js:137-141 | the `_.each` loop with its running seed produces exactly one SET item `"key" = $i` per visited field and the visited values, in visiting order. |
| `Update.SetClausePlaceholders` | lib/table.js:137-144 | the SET clause holds `$1 .. $k`, one per visited field, in visiting order. |
| `Update.UpdateArrayLikeFields` | lib/table.js:138-140 | `update({length: 2}, ...)` sets the indices `"0"` and `"1"` and binds two undefined values. It does not set `length`. |
| `Update.UpdatePlaceholders` | lib/table.js:143-146 | the UPDATE's placeholders are `$1 .. $k` followed by those of the WHERE text. |
| `Update.UpdateCriteriaFirst` | test/table_spec.js:55-56 | `update({}, {price: p})` in the code's order (fields, then criteria) sets nothing: the text is `UPDATE t SET ` followed directly by the WHERE text of `{price: p}`, and no parameter is bound. |
| `Update.UpdateWhere` | lib/table.js:132 | the update in the order the tests call it, criteria first: throws iff the fields are not an object, and otherwise binds exactly the fields' values. |
| `Update.UpdateWhereSetsPrice` | test/table_spec.js:55-56 | with the criteria first, `update({}, {price: p})` reads `UPDATE t SET "price" = $1` plus the WHERE text of `{}`, and binds `p`. |
| `Update.UpdateConsistentIff` | lib/table.js:143-147 | since the criteria's params are dropped and not renumbered, an update is consistent iff the WHERE text holds no placeholder. |
| `Tables.Table.Save` | lib/table.js:160-174 | fails the assertion for a non-object. Otherwise it builds an UPDATE when the key is present and an INSERT when not. The caller's object loses its primary key. |
| `Tables.Table.SaveOnCopy` | lib/table.js:160-174 | the same statement as `save`, built without changing the caller's object. |
| `Tables.Table.SaveUpdatesByKey` | lib/table.js:164-170 | an object with its key set is saved by an UPDATE keyed on `{pk: args[pk]}`, setting every other field and not the key. |
| `Tables.Table.SaveDelimitedKeyOnly` | lib/table.js:156-170 | an object holding only the delimited key `"pk"` is saved by an UPDATE whose criteria are `{pk: undefined}`, and nothing is removed from it. |
| `Tables.Table.SaveInsertsWithoutKey` | lib/table.js:171-173 | an object without the key is inserted as the single row and left unchanged. |
| `Tables.Table.SaveClobbersPrimaryKey` | test/table_spec.js:37-39 | saving the test's `{id: 4, ...}` as written leaves the caller's object without `id`, while its other fields remain. |
| `Search.ColumnListWrapStable` | lib/table.js:189-194 | listing the columns twice gives the same list, and a bare column is the document text on its own. |
| `Search.SearchStatement` | lib/table.js:185-202 | a TypeError for null or undefined arguments. Otherwise an assertion failure iff columns or term is missing. Otherwise the parameters are exactly `[term]`. |
| `Tables.Table.Search` | lib/table.js:185-202 | builds `SearchStatement` and leaves the caller's arguments as `SearchArgs` (a bare `columns` wrapped in a list). |
| `Search.SearchArgsStable` | lib/table.js:189-191 | the rewrite of `columns` does not change the statement, and rewriting twice equals rewriting once. |
| `Search.SearchSqlPlaceholders` | lib/table.js:198-199 | the search text holds the single placeholder `$1`. |
| `Search.SearchConsistent` | lib/table.js:198-201 | a search binds `$1` to its one parameter, the term. |
| `Sql.PlaceholdersOfPlaceholder` | lib/table.js:123 | the text `"$" + n` reads back as the one placeholder n. |
| `Sql.PlaceholdersJoin` | lib/table.js:124 | the placeholders of a join are those of its parts in order, when the separator is plain. |
| `Sql.PlaceholdersAppend` | lib/table.js:127-128 | reading a concatenation reads its halves in turn, when the second does not continue a trailing number. |
| `Sql.PlaceholdersBetween` | lib/table.js:180-181 | text between two `$`-free stretches keeps exactly its own placeholders. |
| `Text.DigitsValueOfNatToString` | lib/table.js:123 | reading back the decimal rendering of n gives n. |
| `Text.UnquoteQuote` | lib/table.js:154 | removing the quotes that `util.format('"%s"', s)` adds gives back s. |
| `Js.LookupAssignSame` | lib/table.js:75-78 | after `o[k] = x`, reading `o[k]` gives x. |
| `Js.LookupAssignOther` | lib/table.js:75-78 | `o[k] = x` leaves every other property as it was. |
| `Js.LookupWithoutSame` | lib/table.js:169 | after `delete o[k]`, `o[k]` reads as undefined. |
| `Js.LookupWithoutOther` | lib/table.js:169 | `delete o[k]` leaves every other property as it was. |
| `Js.ArrayNamedProperty` | lib/table.js:187 | an array's non-numeric property, such as `columns`, reads as undefined. |
| `Js.FlattenAppend` | lib/table.js:129 | `_.flatten` distributes over concatenation. |
| `Js.FlattenScalars` | lib/table.js:129 | a list without arrays flattens to itself. |

## Left out

- `db.query` and the `next` callbacks: the model ends at the statement handed to the connection. Result rows, `res.count` (line 57), error passing and asynchrony are not modelled. The one exception is `findOne`'s reduction of a reply, which takes `(err, results)` as inputs.
- `Where.forTable` and `ArgTypes` are parameters or given inputs, and their code is not part of this model. Statements about placeholders are therefore stated relative to the text `forTable` returns.
- `isUUID` is the parameter `isUuid`.
- The `DocumentTable` mixin merged in at line 31 is not part of this model. Neither is the connection handle `db` (line 14).
- Numbers are integers. Prices and other non-integer numbers play no part in building statements. `String(v)` of a function is a fixed text.
- Named-property writes to non-objects (for example `args.columns = ...` on an array) are dropped by `Js.Set`. `search` only writes after its assertion has passed on an object, so this does not arise there.
- String arguments are not iterated as lists of characters. `insert` with a string row treats the string as having no own properties. (`update` with a string throws at line 133, as modelled.)
- A function passed as `fields` or as a row is walked by `_.each`/`_.map` over its arity (its numeric `length`). The model gives a function no properties and no arity.
- The underscore operations follow underscore 1.6 and 1.7. There `_.keys` of a non-object is `[]`, `_.each`/`_.map` test `obj.length === +obj.length`, and `_.isEmpty` judges only arrays and strings by length. Older versions (1.5 and before) throw a TypeError from `_.keys` on a non-object, so there `insert([])` would throw at line 118. The model does not cover those versions.
- Objects are taken to list their keys in JavaScript's enumeration order already. `Js.Assign` puts a new key last, which is that order only for a key that is not integer-like. No statement here depends on the placement of a new integer-like key.
- `Js.EachEntries`: an array-like object with a negative `length` is walked over no index. This follows underscore's `obj.length === +obj.length` test. Later underscore versions walk such an object's own keys instead.
- `Insert.InsertScalarsConsistent` and `Insert.CorrectedInsertConsistent` also hold in the model for string and function rows, which the model gives no properties. In JavaScript a string row has a numeric `length`, and a function row has one through its arity. So `_.map` (line 123) numbers one placeholder per character or argument against no values. For example `insert(["ab"])` numbers `($1, $2)` and binds nothing. The model does not capture this.
- `Insert.InsertScalarsConsistent`, `Insert.CorrectedInsertConsistent` and `Insert.RowMajorValuesAt` require that no row has a numeric `length`. For such a row, `_.map` (line 123) numbers one placeholder per index below `length`, while `_.values` (line 125) gives the own values. The statement is then not consistent, as `Insert.InsertLengthMismatch` shows. The model keeps that behaviour as written and does not give a corrected version for it.
- `Tables.Table.Find` with an array or a function as options: JavaScript stores named properties on those, but the model's `Js.Set` drops them. So the defaults read back as absent. `ArgTypes.findArgs` is expected to supply an object.
- `Tables.Table.FindOne` passes `find` fresh empty options, standing for what `ArgTypes.findArgs` yields when only conditions and a callback are given.
- `Identity.DelimitedFullNameRoundTrip` holds only for identifiers without `"`. Lines 23-24 do not double an embedded quote, so an identifier holding one is not read back. `Identity.DelimitedNameCollision` shows two tables with one delimited name. The corrected quoting is under "## Findings".
- `Tables.Table.DelimitedPrimaryKeyName` unquotes back to the key only for a key without `"`, because line 154 quotes without escaping too. Column names in `insert` (line 118) and `update` (line 139) are quoted the same way. The model keeps the unescaped quoting as written there.
- `Tables.Table.PrimaryKeyName` has no contract beyond returning `pk`. Its callers' contracts state what it is used for.
- `Tables.Table.Update` / `Update.UpdateStatement`: as in the code, the criteria's parameters are not passed to the query, and the criteria are not numbered after the SET clause. Numbering the criteria from k+1 is not what lines 143-147 do. `Update.UpdateConsistentIff` states the consequence.
- `Update.UpdateStatement` accepts an object with no fields, as the code does (line 133 only checks `_.isObject`). A stricter reading would require at least one field.
- `Search.SearchStatement`: reading `args.columns` of null or undefined is a TypeError, which the model keeps apart from the assertion failure.

## Findings

The model follows `lib/table.js` in argument order and in the `single` flag. The update and multi-row insert tests expect otherwise; the last two rows below record this.

| source | as written | input that shows it | evidently intended | confidence | as-written member | corrected member |
|---|---|---|---|---|---|---|
| lib/table.js:129 | `_.flatten(parameters)` flattens deeply, so an array-valued field is spread into several parameters | `insert({name: "A Product", tags: ['one','two']})` (test/table_spec.js:194): placeholders `$1, $2`, parameters `A Product, one, two` | flatten one level, so each field is one parameter and `$1..$N` bind the N fields | high, not executed | `Insert.InsertArrayFieldMismatch` | `Insert.CorrectedInsertConsistent` |
| lib/table.js:169 | `delete args[pk]` removes the primary key from the caller's own object | `save({id: 4, name: ...})` with pk `id`: afterwards `product.id` is undefined, while test/table_spec.js:39 expects 4 | remove the key from a copy and leave the caller's object unchanged | high, not executed | `Tables.Table.SaveClobbersPrimaryKey` | `Tables.Table.SaveOnCopy` |
| lib/table.js:44 | an empty result list passes through `findOne` unchanged | `findOne({id: v})` after the row was deleted (test/table_spec.js:164-166): `find` asks for a list, gets `[]`, and the callback receives `[]`, while the test expects `undefined` | no row gives undefined, as `find(v)` with a key does through `single` | medium, not executed | `Select.FindOneNoMatch` | `Select.CorrectedFindOneOfRows` |
| lib/table.js:132 | `update(fields, where, next)` takes the fields first, and `save` (line 170) calls it that way | the update tests call it criteria first: `update({}, {price: 1.23})` (test/table_spec.js:56) builds `UPDATE "products" SET ` followed directly by the WHERE text, with no parameters, which is not valid SQL | the tests' order, criteria first. Which order the authors meant is ambiguous: `save` agrees with the code, the four update tests (lines 46, 56, 67, 77) with the corrected member | medium, not executed | `Update.UpdateCriteriaFirst` | `Update.UpdateWhereSetsPrice` |
| lib/table.js:129 | every insert passes `{single: true}`, which asks the connection for one row, as `find` uses the flag (lines 99-110) | `insert([{name: "A Product"}, {name: "Another Product"}])` (test/table_spec.js:183-185): the test expects an array of two rows back | ask for a single row only when `data` is a single object | medium, not executed | `Insert.InsertTwoRows` | `Insert.CorrectedInsertTwoRows` |
| lib/table.js:23-24 | identifiers are put between double quotes without doubling a `"` inside them | a table named `x"."y` in `public` gets the delimited name `"x"."y"`, the same as the table `y` in schema `x` | double every embedded `"`, as section 4.1.1 of the PostgreSQL documentation requires for quoted identifiers, so that every schema and name reads back and no two tables share a delimited name | high, not executed | `Identity.DelimitedNameCollision` | `Identity.CorrectedDelimitedFullNameRoundTrip` |

=== FILE: identity.dfy ===
/** A table's identity: its display name, qualified by the schema only
    when the schema is not the default one, and the delimited form used
    in SQL, where each identifier is put between double quotes once and a
    double quote inside it is left as it is. */
module Identity {
  import opened Text

  const DefaultSchema := "public"

  /** `fullname`: `schema.name`, or just `name` in the default schema. */
  function FullName(schema: string, name: string): string
  {
    if schema != DefaultSchema then schema + "." + name else name
  }

  /** `delimitedFullName`: `"schema"."name"`, or `"name"` in the default schema. */
  function DelimitedFullName(schema: string, name: string): string
  {
    if schema != DefaultSchema then Quote(schema) + "." + Quote(name) else Quote(name)
  }

  /** Reads a delimited, possibly schema-qualified name back into its
      schema (None when unqualified) and its table name. */
  function SplitDelimited(s: string): Option<(Option<string>, string)>
  {
    if |s| < 2 || s[0] != '"' || '"' !in s[1..] then None
    else
      var j := 1 + IndexOf(s[1..], '"');
      var first := s[1..j];
      var rest := s[j + 1..];
      if rest == [] then Some((None, first))
      else if rest[0] == '.' then
        match Unquote(rest[1..])
        case Some(n) => Some((Some(first), n))
        case None => None
      else None
  }

  /** Reading a quoted identifier followed by `rest`. */
  lemma SplitDelimitedHead(first: string, rest: string)
    requires '"' !in first
    ensures SplitDelimited("\"" + first + "\"" + rest)
         == if rest == [] then Some((None, first))
            else if rest[0] == '.' then
              (match Unquote(rest[1..])
               case Some(n) => Some((Some(first), n))
               case None => None)
            else None
  {
    QuotedHeadParts(first, rest);
  }

  lemma QuotedHeadParts(first: string, rest: string)
    requires '"' !in first
    ensures var s := "\"" + first + "\"" + rest;
      |s| >= 2 && s[0] == '"' && '"' in s[1..] && 1 + IndexOf(s[1..], '"') == |first| + 1
      && s[1..|first| + 1] == first && s[|first| + 2..] == rest
  {
    var s := "\"" + first + "\"" + rest;
    var tail := "\"" + rest;
    assert s[1..] == first + tail;
    assert tail[0] == '"';
    assert IndexOf(tail, '"') == 0;
    IndexOfConcat(first, tail, '"');
    assert s[1..][|first|] == '"';
    assert s[1..|first| + 1] == first;
    assert s[|first| + 2..] == rest;
  }

  /** Each identifier is quoted exactly once: removing one layer of quotes
      from the delimited name gives back the schema (when it is not the
      default one) and the table name. */
  lemma DelimitedFullNameRoundTrip(schema: string, name: string)
    requires '"' !in schema && '"' !in name
    ensures SplitDelimited(DelimitedFullName(schema, name))
         == Some((if schema == DefaultSchema then None else Some(schema), name))
  {
    if schema == DefaultSchema {
      assert DelimitedFullName(schema, name) == "\"" + name + "\"" + [];
      SplitDelimitedHead(name, []);
    } else {
      var rest := "." + Quote(name);
      assert DelimitedFullName(schema, name) == "\"" + schema + "\"" + rest;
      SplitDelimitedHead(schema, rest);
      assert rest[1..] == Quote(name);
      UnquoteQuote(name);
    }
  }

  /** Quotes every dot-separated part of a display name. */
  function QuoteParts(fullname: string): string
  {
    var parts := Split(fullname, '.');
    Join(seq(|parts|, i requires 0 <= i < |parts| => Quote(parts[i])), ".")
  }

  /** The delimited name is the display name with each of its parts
      quoted, when the identifiers themselves hold no dot. */
  lemma DelimitedFullNameQuotesFullName(schema: string, name: string)
    requires '.' !in name
    requires schema != DefaultSchema ==> '.' !in schema
    ensures QuoteParts(FullName(schema, name)) == DelimitedFullName(schema, name)
  {
    if schema != DefaultSchema {
      SplitAt(schema, name, '.');
      assert schema + "." + name == schema + ['.'] + name;
      assert Split(name, '.') == [name];
      var parts := Split(FullName(schema, name), '.');
      assert parts == [schema, name];
      var quoted := seq(|parts|, i requires 0 <= i < |parts| => Quote(parts[i]));
      assert quoted == [Quote(schema), Quote(name)];
      assert quoted[..1] == [Quote(schema)];
      assert Join(quoted, ".") == Join(quoted[..1], ".") + "." + Quote(name);
      assert QuoteParts(FullName(schema, name)) == Join(quoted, ".");
    } else {
      assert Split(name, '.') == [name];
    }
  }

  /** A `"` inside an identifier is not escaped, so a table in the default
      schema whose name is `x"."y` gets the delimited name of the table `y`
      in the schema `x`, although the two display names differ. */
  lemma DelimitedNameCollision()
    ensures DelimitedFullName(DefaultSchema, "x\".\"y") == DelimitedFullName("x", "y")
    ensures FullName(DefaultSchema, "x\".\"y") != FullName("x", "y")
  {
    assert FullName("x", "y") == "x.y";
    assert |FullName(DefaultSchema, "x\".\"y")| != |"x.y"|;
  }

  /** `delimitedFullName` with embedded double quotes doubled. */
  function CorrectedDelimitedFullName(schema: string, name: string): (r: string)
    ensures '"' !in schema && '"' !in name ==> r == DelimitedFullName(schema, name)
  {
    if schema != DefaultSchema then QuoteEscaped(schema) + ("." + QuoteEscaped(name)) else QuoteEscaped(name)
  }

  /** Reads a delimited name with doubled quotes back into its schema
      (None when unqualified) and its table name. */
  function CorrectedSplitDelimited(s: string): Option<(Option<string>, string)>
  {
    if |s| == 0 || s[0] != '"' then None
    else
      match ReadQuotedBody(s[1..])
      case None => None
      case Some(p) => AfterFirstIdentifier(p.0, p.1)
  }

  /** The rest of a delimited name after its first identifier `first`:
      nothing, or a dot and a second quoted identifier that ends the text. */
  function AfterFirstIdentifier(first: string, rest: string): Option<(Option<string>, string)>
  {
    if rest == [] then Some((None, first))
    else if |rest| >= 2 && rest[0] == '.' && rest[1] == '"' then
      match ReadQuotedBody(rest[2..])
      case Some(q) => if q.1 == [] then Some((Some(first), q.0)) else None
      case None => None
    else None
  }

  /** Every identifier, whatever quotes it holds, reads back from the
      corrected delimited name. */
  lemma CorrectedDelimitedFullNameRoundTrip(schema: string, name: string)
    ensures CorrectedSplitDelimited(CorrectedDelimitedFullName(schema, name))
         == Some((if schema == DefaultSchema then None else Some(schema), name))
  {
    if schema != DefaultSchema {
      CorrectedSplitQualified(schema, name);
    } else {
      CorrectedSplitUnqualified(name);
    }
  }

  lemma CorrectedSplitUnqualified(name: string)
    ensures CorrectedSplitDelimited(QuoteEscaped(name)) == Some((None, name))
  {
    QuoteEscapedRead(name, []);
    assert QuoteEscaped(name) + [] == QuoteEscaped(name);
  }

  lemma CorrectedSplitQualified(schema: string, name: string)
    ensures CorrectedSplitDelimited(QuoteEscaped(schema) + ("." + QuoteEscaped(name))) == Some((Some(schema), name))
  {
    var rest := "." + QuoteEscaped(name);
    QuoteEscapedRead(schema, rest);
    QuoteEscapedRead(name, []);
    DotQuotedParts(name);
    assert AfterFirstIdentifier(schema, rest) == Some((Some(schema), name));
  }

  lemma DotQuotedParts(name: string)
    ensures var rest := "." + QuoteEscaped(name);
      |rest| >= 2 && rest[0] == '.' && rest[1] == '"' && rest[2..] == EscapeQuotes(name) + ("\"" + [])
  {
    var e := EscapeQuotes(name);
    assert "." + QuoteEscaped(name) == ".\"" + (e + ("\"" + []));
  }

  /** A quoted identifier followed by `rest` reads back as the identifier
      and `rest`. */
  lemma QuoteEscapedRead(id: string, rest: string)
    requires rest == [] || rest[0] != '"'
    ensures |QuoteEscaped(id) + rest| > 0 && (QuoteEscaped(id) + rest)[0] == '"'
    ensures ReadQuotedBody((QuoteEscaped(id) + rest)[1..]) == Some((id, rest))
    ensures ReadQuotedBody(EscapeQuotes(id) + ("\"" + rest)) == Some((id, rest))
  {
    var e := EscapeQuotes(id);
    assert (QuoteEscaped(id) + rest)[1..] == e + ("\"" + rest);
    ReadQuotedBodyEscape(id, rest);
  }

  /** So the corrected delimited name tells every two tables apart. */
  lemma CorrectedDelimitedFullNameInjective(schema1: string, name1: string, schema2: string, name2: string)
    requires CorrectedDelimitedFullName(schema1, name1) == CorrectedDelimitedFullName(schema2, name2)
    ensures schema1 == schema2 && name1 == name2
  {
    CorrectedDelimitedFullNameRoundTrip(schema1, name1);
    CorrectedDelimitedFullNameRoundTrip(schema2, name2);
  }
}

=== FILE: insert.dfy ===
/** The multi-row INSERT statement `Table.insert` builds: the first row's
    keys give the column list, each row gives one parenthesised tuple of
    placeholders numbered on from the previous rows, and the rows' values
    become the parameters. */
module Insert {
  import opened Text
  import opened Js
  import opened Sql

  const NoDataMessage := "insert should be called with data"

  /** `data` as a list of rows: an array's elements, or the one value. */
  function Rows(data: Value): seq<Value>
  {
    if data.Arr? then data.items else [data]
  }

  /** The delimited column list: the first row's keys, each quoted
      (`data[0]` of an empty array is undefined and has no keys). */
  function ColumnNames(rows: seq<Value>): (cols: seq<string>)
    ensures |cols| == |Keys(if rows == [] then Undefined else rows[0])|
  {
    var ks := Keys(if rows == [] then Undefined else rows[0]);
    seq(|ks|, i requires 0 <= i < |ks| => Quote(ks[i]))
  }

  /** How many placeholders a row gets: one per property `_.map` visits,
      which for an array-like row is its `length`, not its own keys. */
  function Width(row: Value): nat
  {
    |EachEntries(row)|
  }

  /** No row is array-like, so each row gets one placeholder per own
      property, as many as `_.values` gives it. */
  predicate PlainRows(rows: seq<Value>)
  {
    forall i :: 0 <= i < |rows| ==> !ArrayLike(rows[i])
  }

  /** The number of fields over all rows. */
  function FieldCount(rows: seq<Value>): nat
  {
    if |rows| == 0 then 0 else FieldCount(rows[..|rows| - 1]) + Width(rows[|rows| - 1])
  }

  /** `$seed+1`, ..., `$seed+n`. */
  function PlaceholderTexts(seed: nat, n: nat): (ps: seq<string>)
    ensures |ps| == n && forall i :: 0 <= i < n ==> ps[i] == Placeholder(seed + i + 1)
  {
    seq(n, i requires 0 <= i < n => Placeholder(seed + i + 1))
  }

  /** One row's tuple: `($seed+1, ..., $seed+n)`. */
  function TupleText(seed: nat, n: nat): string
  {
    "(" + Join(PlaceholderTexts(seed, n), ", ") + ")"
  }

  /** The tuples of all rows, numbered in row-major order from `$1`. */
  function Tuples(rows: seq<Value>): seq<string>
  {
    if |rows| == 0 then []
    else
      var init := rows[..|rows| - 1];
      Tuples(init) + [TupleText(FieldCount(init), Width(rows[|rows| - 1]))]
  }

  /** The `parameters` array before flattening: one array of values per row. */
  function RowValues(rows: seq<Value>): (ps: seq<Value>)
    ensures |ps| == |rows| && forall i :: 0 <= i < |rows| ==> ps[i] == Arr(Values(rows[i]))
  {
    seq(|rows|, i requires 0 <= i < |rows| => Arr(Values(rows[i])))
  }

  /** `INSERT INTO dfn (columns) VALUES` and a line break. */
  function InsertHeader(dfn: string, cols: seq<string>): string
  {
    "INSERT INTO " + dfn + " (" + Join(cols, ", ") + ") VALUES\n"
  }

  function InsertSql(dfn: string, rows: seq<Value>): string
  {
    InsertHeader(dfn, ColumnNames(rows)) + Join(Tuples(rows), ",\n") + " RETURNING *"
  }

  /** The statement `insert` hands to the connection, as written: the
      parameters are `_.flatten` of the per-row value arrays. */
  function InsertStatement(dfn: string, data: Value): (r: Result<Statement>)
    ensures r.Err? <==> !Truthy(data)
    ensures r.Err? ==> r.error == Thrown(NoDataMessage)
    ensures r.Ok? ==> r.value.single == Some(true) && r.value.params.Some?
  {
    if !Truthy(data) then Err(Thrown(NoDataMessage))
    else
      var rows := Rows(data);
      Ok(Statement(InsertSql(dfn, rows), Some(Flatten(RowValues(rows))), Some(true)))
  }

  /** Every row's values, row after row: what the placeholders number. */
  function RowMajorValues(rows: seq<Value>): seq<Value>
  {
    if |rows| == 0 then [] else RowMajorValues(rows[..|rows| - 1]) + Values(rows[|rows| - 1])
  }

  /** Plain rows have exactly as many values as placeholders. */
  lemma {:induction false} RowMajorValuesLength(rows: seq<Value>)
    requires PlainRows(rows)
    ensures |RowMajorValues(rows)| == FieldCount(rows)
  {
    if rows != [] {
      assert PlainRows(rows[..|rows| - 1]) && !ArrayLike(rows[|rows| - 1]);
      RowMajorValuesLength(rows[..|rows| - 1]);
    }
  }

  /** The statement with the parameters flattened one level only, so that
      an array-valued field stays one parameter, and asking for a single
      row only when `data` was a single object, so that an array of rows
      gets back an array of rows. */
  function CorrectedInsertStatement(dfn: string, data: Value): (r: Result<Statement>)
    ensures r.Err? <==> !Truthy(data)
    ensures r.Ok? ==> (r.value.single == Some(false) <==> data.Arr?)
  {
    if !Truthy(data) then Err(Thrown(NoDataMessage))
    else
      var rows := Rows(data);
      Ok(Statement(InsertSql(dfn, rows), Some(RowMajorValues(rows)), Some(!data.Arr?)))
  }

  /** Taking one more row adds its tuple, its fields and its value array. */
  lemma RowStep(rows: seq<Value>, i: nat)
    requires i < |rows|
    ensures Tuples(rows[..i + 1]) == Tuples(rows[..i]) + [TupleText(FieldCount(rows[..i]), Width(rows[i]))]
    ensures FieldCount(rows[..i + 1]) == FieldCount(rows[..i]) + Width(rows[i])
    ensures RowValues(rows[..i + 1]) == RowValues(rows[..i]) + [Arr(Values(rows[i]))]
  {
    var p := rows[..i + 1];
    assert p[..|p| - 1] == rows[..i];
    assert p[|p| - 1] == rows[i];
    SnocSteps(p);
  }

  lemma SnocSteps(p: seq<Value>)
    requires p != []
    ensures Tuples(p) == Tuples(p[..|p| - 1]) + [TupleText(FieldCount(p[..|p| - 1]), Width(p[|p| - 1]))]
    ensures FieldCount(p) == FieldCount(p[..|p| - 1]) + Width(p[|p| - 1])
    ensures RowValues(p) == RowValues(p[..|p| - 1]) + [Arr(Values(p[|p| - 1]))]
  {
    RowValuesSnoc(p);
  }

  lemma RowValuesSnoc(p: seq<Value>)
    requires p != []
    ensures RowValues(p) == RowValues(p[..|p| - 1]) + [Arr(Values(p[|p| - 1]))]
  {
    var init := p[..|p| - 1];
    var r := RowValues(init) + [Arr(Values(p[|p| - 1]))];
    assert |r| == |p|;
    forall i | 0 <= i < |p| ensures RowValues(p)[i] == r[i] {
      if i < |init| {
        assert p[i] == init[i];
      }
    }
  }

  /** Row `i` emits one tuple, numbered after the fields of the rows before it. */
  lemma {:induction false} TuplesPerRow(rows: seq<Value>)
    ensures |Tuples(rows)| == |rows|
    ensures forall i :: 0 <= i < |rows| ==> Tuples(rows)[i] == TupleText(FieldCount(rows[..i]), Width(rows[i]))
  {
    if rows != [] {
      var init := rows[..|rows| - 1];
      TuplesPerRow(init);
      forall i | 0 <= i < |rows|
        ensures Tuples(rows)[i] == TupleText(FieldCount(rows[..i]), Width(rows[i]))
      {
        if i < |init| {
          assert rows[..i] == init[..i];
        } else {
          assert rows[..i] == init;
        }
      }
    }
  }

  /** Placeholder number FieldCount(rows before i) + j + 1 binds field `j`
      of row `i`. */
  lemma {:induction false} RowMajorValuesAt(rows: seq<Value>, i: nat, j: nat)
    requires i < |rows| && j < Width(rows[i]) && PlainRows(rows)
    ensures FieldCount(rows[..i]) + j < |RowMajorValues(rows)|
    ensures RowMajorValues(rows)[FieldCount(rows[..i]) + j] == Values(rows[i])[j]
  {
    if i < |rows| - 1 {
      InitKeepsRow(rows, i, j);
      RowMajorValuesAt(rows[..|rows| - 1], i, j);
      RowMajorValuesAtEarlier(rows, i, j);
    } else {
      RowMajorValuesAtLast(rows, i, j);
    }
  }

  /** Dropping the last row keeps row `i` and its field `j`. */
  lemma InitKeepsRow(rows: seq<Value>, i: nat, j: nat)
    requires i < |rows| - 1 && j < Width(rows[i]) && PlainRows(rows)
    ensures i < |rows[..|rows| - 1]| && j < Width(rows[..|rows| - 1][i]) && PlainRows(rows[..|rows| - 1])
    ensures j < |Values(rows[..|rows| - 1][i])|
  {
    assert rows[..|rows| - 1][i] == rows[i] && !ArrayLike(rows[i]);
  }

  /** A row before the last keeps its place when the last row is added. */
  lemma RowMajorValuesAtEarlier(rows: seq<Value>, i: nat, j: nat)
    requires i < |rows| - 1 && PlainRows(rows) && j < |Values(rows[..|rows| - 1][i])|
    requires FieldCount(rows[..|rows| - 1][..i]) + j < |RowMajorValues(rows[..|rows| - 1])|
    requires RowMajorValues(rows[..|rows| - 1])[FieldCount(rows[..|rows| - 1][..i]) + j] == Values(rows[..|rows| - 1][i])[j]
    ensures FieldCount(rows[..i]) + j < |RowMajorValues(rows)|
    ensures RowMajorValues(rows)[FieldCount(rows[..i]) + j] == Values(rows[i])[j]
  {
    var init := rows[..|rows| - 1];
    RowMajorValuesSnoc(rows);
    InitPrefix(rows, i);
    IndexLeft(RowMajorValues(rows), RowMajorValues(init), Values(rows[|rows| - 1]),
              FieldCount(rows[..i]) + j, FieldCount(init[..i]) + j, Values(rows[i])[j]);
  }

  /** Row `i` and the rows before it are the same with or without the last row. */
  lemma InitPrefix(rows: seq<Value>, i: nat)
    requires i < |rows| - 1
    ensures FieldCount(rows[..|rows| - 1][..i]) == FieldCount(rows[..i])
    ensures Values(rows[..|rows| - 1][i]) == Values(rows[i])
  {
    assert rows[..|rows| - 1][..i] == rows[..i];
  }

  /** Index n inside the left part a of a + b reads a[n]. */
  lemma IndexLeft<T>(s: seq<T>, a: seq<T>, b: seq<T>, n: nat, m: nat, x: T)
    requires s == a + b && m == n && n < |a| && a[m] == x
    ensures n < |s| && s[n] == x
  {
  }

  /** The last row's values come after all the others. */
  lemma RowMajorValuesAtLast(rows: seq<Value>, i: nat, j: nat)
    requires i == |rows| - 1 && j < Width(rows[i]) && PlainRows(rows)
    ensures FieldCount(rows[..i]) + j < |RowMajorValues(rows)|
    ensures RowMajorValues(rows)[FieldCount(rows[..i]) + j] == Values(rows[i])[j]
  {
    RowMajorValuesSnoc(rows);
  }

  /** Peeling the last row off plain rows. */
  lemma RowMajorValuesSnoc(rows: seq<Value>)
    requires rows != [] && PlainRows(rows)
    ensures PlainRows(rows[..|rows| - 1])
    ensures RowMajorValues(rows) == RowMajorValues(rows[..|rows| - 1]) + Values(rows[|rows| - 1])
    ensures |RowMajorValues(rows[..|rows| - 1])| == FieldCount(rows[..|rows| - 1])
    ensures Width(rows[|rows| - 1]) == |Values(rows[|rows| - 1])|
  {
    assert PlainRows(rows[..|rows| - 1]) && !ArrayLike(rows[|rows| - 1]);
    RowMajorValuesLength(rows[..|rows| - 1]);
  }

  /** A tuple holds exactly the placeholders it numbers. */
  lemma TuplePlaceholders(seed: nat, n: nat)
    ensures Placeholders(TupleText(seed, n)) == Run(seed + 1, n)
  {
    var ps := PlaceholderTexts(seed, n);
    PlaceholderTextsEach(seed, n);
    forall i | 0 <= i < |ps| ensures StartsClean(ps[i]) { }
    PlaceholdersJoin(ps, ", ");
    var inner := Join(ps, ", ");
    assert TupleText(seed, n) == "(" + (inner + ")");
    PlaceholdersAfterPlain("(", inner + ")");
    PlaceholdersAppend(inner, ")");
    PlaceholdersNone(")");
  }

  lemma {:induction false} PlaceholderTextsEach(seed: nat, n: nat)
    ensures PlaceholdersEach(PlaceholderTexts(seed, n)) == Run(seed + 1, n)
  {
    if n > 0 {
      var ps := PlaceholderTexts(seed, n);
      assert ps[..n - 1] == PlaceholderTexts(seed, n - 1);
      PlaceholderTextsEach(seed, n - 1);
      PlaceholdersOfPlaceholder(seed + n);
      RunAppend(seed + 1, n - 1, 1);
    }
  }

  lemma {:induction false} TuplesEach(rows: seq<Value>)
    ensures PlaceholdersEach(Tuples(rows)) == Run(1, FieldCount(rows))
  {
    if rows != [] {
      var init := rows[..|rows| - 1];
      SnocSteps(rows);
      TuplesEach(init);
      PlaceholdersEachSnoc(Tuples(init), TupleText(FieldCount(init), Width(rows[|rows| - 1])));
      TuplePlaceholders(FieldCount(init), Width(rows[|rows| - 1]));
      RunAppend(1, FieldCount(init), Width(rows[|rows| - 1]));
    }
  }

  /** The columns hold no `$` when the first row's keys hold none. */
  lemma ColumnNamesPlain(rows: seq<Value>)
    requires forall k :: k in Keys(if rows == [] then Undefined else rows[0]) ==> '$' !in k
    ensures '$' !in Join(ColumnNames(rows), ", ")
  {
    var cols := ColumnNames(rows);
    var ks := Keys(if rows == [] then Undefined else rows[0]);
    forall i | 0 <= i < |cols| ensures '$' !in cols[i] {
      assert ks[i] in ks;
      assert cols[i] == Quote(ks[i]);
      QuoteAvoids(ks[i], '$');
    }
    JoinAvoids(cols, ", ", '$');
  }

  /** The placeholders of the INSERT are `$1`, ..., `$N` in row-major
      order, N the number of fields over all rows, provided the table name
      and the first row's keys hold no `$`. */
  lemma InsertPlaceholders(dfn: string, rows: seq<Value>)
    requires '$' !in dfn
    requires forall k :: k in Keys(if rows == [] then Undefined else rows[0]) ==> '$' !in k
    ensures Placeholders(InsertSql(dfn, rows)) == Run(1, FieldCount(rows))
  {
    ColumnNamesPlain(rows);
    HeaderPlain(dfn, ColumnNames(rows));
    PlaceholdersBetween(InsertHeader(dfn, ColumnNames(rows)), Join(Tuples(rows), ",\n"), " RETURNING *");
    TuplesJoinPlaceholders(rows);
  }

  lemma HeaderPlain(dfn: string, cols: seq<string>)
    requires '$' !in dfn && '$' !in Join(cols, ", ")
    ensures '$' !in InsertHeader(dfn, cols)
  {
  }

  lemma TuplesJoinPlaceholders(rows: seq<Value>)
    ensures Placeholders(Join(Tuples(rows), ",\n")) == Run(1, FieldCount(rows))
  {
    TuplesPerRow(rows);
    forall i | 0 <= i < |Tuples(rows)| ensures StartsClean(Tuples(rows)[i]) {
      assert Tuples(rows)[i][0] == '(';
    }
    PlaceholdersJoin(Tuples(rows), ",\n");
    TuplesEach(rows);
  }

  /** With the parameters flattened one level, every insert that does not
      throw and has no array-like row is consistent: `$1`..`$N` bind the N
      field values in row-major order. */
  lemma CorrectedInsertConsistent(dfn: string, data: Value)
    requires Truthy(data) && '$' !in dfn && PlainRows(Rows(data))
    requires forall k :: k in Keys(if Rows(data) == [] then Undefined else Rows(data)[0]) ==> '$' !in k
    ensures CorrectedInsertStatement(dfn, data).Ok?
    ensures Consistent(CorrectedInsertStatement(dfn, data).value)
  {
    InsertPlaceholders(dfn, Rows(data));
    RowMajorValuesLength(Rows(data));
  }

  /** An insert of rows that are not array-like and whose field values
      are not arrays binds its placeholders one-to-one: `$1`..`$N` and N
      parameters. */
  lemma InsertScalarsConsistent(dfn: string, data: Value)
    requires Truthy(data) && '$' !in dfn && PlainRows(Rows(data))
    requires forall k :: k in Keys(if Rows(data) == [] then Undefined else Rows(data)[0]) ==> '$' !in k
    requires forall i, j :: 0 <= i < |Rows(data)| && 0 <= j < |Values(Rows(data)[i])| ==> !Values(Rows(data)[i])[j].Arr?
    ensures InsertStatement(dfn, data).Ok?
    ensures Consistent(InsertStatement(dfn, data).value)
  {
    InsertScalarsAsCorrected(dfn, data);
    CorrectedInsertConsistent(dfn, data);
  }

  /** When no field value is an array, the deep flatten of the source
      gives the row-major values, and the statement as written is the
      corrected one. */
  lemma {:induction false} FlattenRowValuesScalars(rows: seq<Value>)
    requires forall i, j :: 0 <= i < |rows| && 0 <= j < |Values(rows[i])| ==> !Values(rows[i])[j].Arr?
    ensures Flatten(RowValues(rows)) == RowMajorValues(rows)
  {
    if rows != [] {
      var init := rows[..|rows| - 1];
      var last := rows[|rows| - 1];
      RowValuesSnoc(rows);
      FlattenRowValuesScalars(init);
      FlattenAppend(RowValues(init), [Arr(Values(last))]);
      FlattenScalarRow(Values(last));
    }
  }

  /** A row's value array with no array among its values flattens to those values. */
  lemma FlattenScalarRow(vs: seq<Value>)
    requires forall j :: 0 <= j < |vs| ==> !vs[j].Arr?
    ensures Flatten([Arr(vs)]) == vs
  {
    FlattenScalars(vs);
    assert [Arr(vs)][1..] == [];
  }

  lemma InsertScalarsAsCorrected(dfn: string, data: Value)
    requires forall i, j :: 0 <= i < |Rows(data)| && 0 <= j < |Values(Rows(data)[i])| ==> !Values(Rows(data)[i])[j].Arr?
    ensures !Truthy(data) ==> InsertStatement(dfn, data) == CorrectedInsertStatement(dfn, data)
    ensures Truthy(data) ==> CorrectedInsertStatement(dfn, data) == Ok(InsertStatement(dfn, data).value.(single := Some(!data.Arr?)))
  {
    FlattenRowValuesScalars(Rows(data));
  }

  /** The row of the array-field insert: a name and a list of two tags. */
  const TaggedProduct := Obj([("name", Str("A Product")), ("tags", Arr([Str("one"), Str("two")]))])

  /** As written, inserting `{name: "A Product", tags: ["one", "two"]}`
      emits two placeholders but binds three parameters, because the tag
      list is spread by the deep flatten; the corrected statement binds
      two, the tag list as one. */
  lemma InsertArrayFieldMismatch()
    ensures InsertStatement(ProductsTable, TaggedProduct).Ok?
    ensures Placeholders(InsertStatement(ProductsTable, TaggedProduct).value.sql) == [1, 2]
    ensures ParamList(InsertStatement(ProductsTable, TaggedProduct).value)
         == [Str("A Product"), Str("one"), Str("two")]
    ensures !Consistent(InsertStatement(ProductsTable, TaggedProduct).value)
    ensures ParamList(CorrectedInsertStatement(ProductsTable, TaggedProduct).value)
         == [Str("A Product"), Arr([Str("one"), Str("two")])]
  {
    TaggedProductFacts();
    TaggedProductPlaceholders();
    ShortRuns();
  }

  /** A row with a numeric `length` column. */
  const MeasuredRow := Obj([("name", Str("x")), ("length", Num(3))])

  /** Inserting `{name: "x", length: 3}` as written numbers the tuple by
      the row's `length`, `($1, $2, $3)`, but binds only its two values. */
  lemma InsertLengthMismatch()
    ensures InsertStatement(ProductsTable, MeasuredRow).Ok?
    ensures Placeholders(InsertStatement(ProductsTable, MeasuredRow).value.sql) == [1, 2, 3]
    ensures ParamList(InsertStatement(ProductsTable, MeasuredRow).value) == [Str("x"), Num(3)]
  {
    MeasuredRowPlaceholders();
    MeasuredRowParams();
  }

  lemma MeasuredRowPlaceholders()
    ensures Placeholders(InsertSql(ProductsTable, [MeasuredRow])) == [1, 2, 3]
  {
    MeasuredRowWidth();
    MeasuredRowKeysPlain();
    ThreeWideRowPlaceholders(ProductsTable, MeasuredRow);
  }

  lemma ThreeWideRowPlaceholders(dfn: string, row: Value)
    requires '$' !in dfn && forall k :: k in Keys(row) ==> '$' !in k
    requires Width(row) == 3
    ensures Placeholders(InsertSql(dfn, [row])) == [1, 2, 3]
  {
    SingleRowPlaceholders(dfn, row);
    ShortRuns();
  }

  /** A one-row insert numbers `$1`..`$w`, w the row's width. */
  lemma SingleRowPlaceholders(dfn: string, row: Value)
    requires '$' !in dfn && forall k :: k in Keys(row) ==> '$' !in k
    ensures Placeholders(InsertSql(dfn, [row])) == Run(1, Width(row))
  {
    assert [row][..0] == [];
    InsertPlaceholders(dfn, [row]);
  }

  lemma MeasuredRowKeysPlain()
    ensures forall k :: k in Keys(MeasuredRow) ==> '$' !in k
  {
    assert Keys(MeasuredRow) == ["name", "length"];
  }

  lemma ShortRuns()
    ensures Run(1, 2) == [1, 2]
    ensures Run(1, 3) == [1, 2, 3]
  {
  }

  lemma MeasuredRowWidth()
    ensures Width(MeasuredRow) == 3
  {
    assert Get(MeasuredRow, "length") == Num(3);
  }

  lemma MeasuredRowParams()
    ensures Flatten(RowValues([MeasuredRow])) == [Str("x"), Num(3)]
  {
    assert Values(MeasuredRow) == [Str("x"), Num(3)];
    assert RowValues([MeasuredRow]) == [Arr(Values(MeasuredRow))];
    FlattenScalarRow(Values(MeasuredRow));
  }

  /** The two rows of the multi-row insert test. */
  const TwoProducts := Arr([Obj([("name", Str("A Product"))]), Obj([("name", Str("Another Product"))])])

  /** Inserting the two products gives one tuple per row, `($1)` and
      `($2)`, and binds the two names in row order. */
  lemma InsertTwoRows()
    ensures InsertStatement(ProductsTable, TwoProducts).Ok?
    ensures InsertStatement(ProductsTable, TwoProducts).value.single == Some(true)
    ensures InsertStatement(ProductsTable, TwoProducts).value.sql
         == InsertHeader(ProductsTable, ["\"name\""]) + "($1),\n($2)" + " RETURNING *"
    ensures ParamList(InsertStatement(ProductsTable, TwoProducts).value) == [Str("A Product"), Str("Another Product")]
  {
    TwoProductsSql();
    TwoProductsParams();
  }

  /** Corrected, the two-product insert is the same text and parameters
      but asks for all rows, which is what the multi-row insert test
      expects back. */
  lemma CorrectedInsertTwoRows()
    ensures CorrectedInsertStatement(ProductsTable, TwoProducts).Ok?
    ensures CorrectedInsertStatement(ProductsTable, TwoProducts).value.single == Some(false)
    ensures CorrectedInsertStatement(ProductsTable, TwoProducts).value.sql
         == InsertHeader(ProductsTable, ["\"name\""]) + "($1),\n($2)" + " RETURNING *"
    ensures ParamList(CorrectedInsertStatement(ProductsTable, TwoProducts).value) == [Str("A Product"), Str("Another Product")]
  {
    InsertTwoRows();
    InsertScalarsAsCorrected(ProductsTable, TwoProducts);
  }

  lemma TwoProductsSql()
    ensures InsertSql(ProductsTable, TwoProducts.items)
         == InsertHeader(ProductsTable, ["\"name\""]) + "($1),\n($2)" + " RETURNING *"
  {
    TwoProductsColumns();
    TwoProductsTuples();
    assert Join(["($1)", "($2)"], ",\n") == "($1),\n($2)";
  }

  lemma TwoProductsParams()
    ensures Flatten(RowValues(TwoProducts.items)) == [Str("A Product"), Str("Another Product")]
  {
    var rows := TwoProducts.items;
    FlattenRowValuesScalars(rows);
    assert rows[..1][..0] == [];
    assert RowMajorValues(rows[..1]) == [Str("A Product")];
  }

  lemma TwoProductsColumns()
    ensures ColumnNames(TwoProducts.items) == ["\"name\""]
  {
    assert Keys(TwoProducts.items[0]) == ["name"];
    assert Quote("name") == "\"name\"";
  }

  lemma TwoProductsTuples()
    ensures Tuples(TwoProducts.items) == ["($1)", "($2)"]
  {
    var rows := TwoProducts.items;
    assert Width(rows[0]) == 1 && Width(rows[1]) == 1;
    assert rows[..1] == [rows[0]] && rows[..1][..0] == [];
    assert FieldCount(rows[..1]) == 1;
    PlaceholderTextsOne();
    assert Tuples(rows[..1]) == ["($1)"];
  }

  lemma PlaceholderTextsOne()
    ensures TupleText(0, 1) == "($1)" && TupleText(1, 1) == "($2)"
  {
    assert NatToString(1) == "1" && NatToString(2) == "2";
    assert Placeholder(1) == "$1" && Placeholder(2) == "$2";
    assert PlaceholderTexts(0, 1) == ["$1"];
    assert PlaceholderTexts(1, 1) == ["$2"];
  }

  /** The delimited name of the products table. */
  const ProductsTable := "\"products\""

  lemma TaggedProductPlaceholders()
    ensures Placeholders(InsertSql(ProductsTable, [TaggedProduct])) == Run(1, 2)
  {
    TaggedProductFacts();
    assert '$' !in ProductsTable;
    InsertPlaceholders(ProductsTable, [TaggedProduct]);
  }

  lemma TaggedProductFacts()
    ensures Keys(TaggedProduct) == ["name", "tags"]
    ensures FieldCount([TaggedProduct]) == 2
    ensures Flatten(RowValues([TaggedProduct])) == [Str("A Product"), Str("one"), Str("two")]
    ensures RowMajorValues([TaggedProduct]) == [Str("A Product"), Arr([Str("one"), Str("two")])]
  {
    var rows := [TaggedProduct];
    assert rows[..0] == [];
    var vs := Values(TaggedProduct);
    assert vs == [Str("A Product"), Arr([Str("one"), Str("two")])];
    assert RowValues(rows) == [Arr(vs)];
    assert Flatten([Str("one"), Str("two")]) == [Str("one"), Str("two")] by {
      assert [Str("one"), Str("two")][1..] == [Str("two")];
    }
    assert Flatten(vs) == [Str("A Product")] + Flatten(vs[1..]);
    assert vs[1..] == [Arr([Str("one"), Str("two")])];
    assert Flatten(vs[1..]) == Flatten([Str("one"), Str("two")]) + Flatten([]);
    assert Flatten([Arr(vs)]) == Flatten(vs) + Flatten([]);
  }
}

=== FILE: js.dfy ===
/** The JavaScript values the Table operations receive, and the few
    underscore and language operations they apply to them: truthiness,
    `_.isObject`, `_.isEmpty`, `_.keys`/`_.values`/`_.each` over own
    properties, property get/set/delete, string conversion and `_.flatten`.
    The underscore operations behave as in underscore 1.6 and 1.7: `_.keys`
    of a value that is not an object is `[]`, `_.each` and `_.map` walk by
    index any object whose `length` is a number (`obj.length === +obj.length`),
    and `_.isEmpty` treats only arrays and strings by their length.
    An object is an ordered list of (key, value) pairs, because key order
    decides column and parameter order. The list is taken to be in
    JavaScript's enumeration order already (integer-like keys first, in
    ascending order, then the other keys in insertion order); the model
    does not re-sort it. */
module Js {
  import opened Text

  datatype Value =
    | Undefined
    | Null
    | Bool(b: bool)
    | Num(n: int)
    | Str(s: string)
    | Arr(items: seq<Value>)
    | Obj(props: seq<(string, Value)>)
    | Fn

  /** A caller-held reference: the callee may change the properties of the
      object it refers to, and the caller sees the change. */
  class Ref {
    var value: Value

    constructor (v: Value)
      ensures value == v
    {
      value := v;
    }
  }

  /** `if (v)`: false, 0, "", null and undefined are falsy. */
  predicate Truthy(v: Value)
  {
    match v
    case Undefined => false
    case Null => false
    case Bool(b) => b
    case Num(n) => n != 0
    case Str(s) => s != ""
    case _ => true
  }

  /** `_.isObject`: objects, arrays and functions. */
  predicate IsObject(v: Value) { v.Obj? || v.Arr? || v.Fn? }

  /** `_.isEmpty`: null and undefined, an empty string, array or object, and
      every value without own enumerable properties (numbers, booleans,
      functions). */
  predicate IsEmpty(v: Value)
  {
    match v
    case Str(s) => s == ""
    case Arr(items) => items == []
    case Obj(props) => props == []
    case _ => true
  }

  /** The own enumerable properties in iteration order: the pairs of an
      object, the indexed elements of an array, nothing for other values. */
  function Entries(v: Value): (es: seq<(string, Value)>)
    ensures v.Obj? ==> es == v.props
    ensures v.Arr? ==> |es| == |v.items|
    ensures !v.Obj? && !v.Arr? ==> es == []
  {
    match v
    case Obj(props) => props
    case Arr(items) => seq(|items|, i requires 0 <= i < |items| => (NatToString(i), items[i]))
    case _ => []
  }

  /** `_.keys`. */
  function Keys(v: Value): (ks: seq<string>)
    ensures |ks| == |Entries(v)|
    ensures forall i :: 0 <= i < |ks| ==> ks[i] == Entries(v)[i].0
  {
    var es := Entries(v);
    seq(|es|, i requires 0 <= i < |es| => es[i].0)
  }

  /** `_.values`. */
  function Values(v: Value): (vs: seq<Value>)
    ensures |vs| == |Entries(v)|
    ensures forall i :: 0 <= i < |vs| ==> vs[i] == Entries(v)[i].1
  {
    var es := Entries(v);
    seq(|es|, i requires 0 <= i < |es| => es[i].1)
  }

  /** An object with a numeric `length` property, which `_.each` and
      `_.map` walk like an array. */
  predicate ArrayLike(v: Value)
  {
    v.Obj? && Get(v, "length").Num?
  }

  /** The (key, value) pairs `_.each` and `_.map` visit: the indices
      0 .. length-1 of an array-like object, read as properties (a missing
      index reads as undefined), and the own properties of anything else. */
  function EachEntries(v: Value): (es: seq<(string, Value)>)
    ensures !ArrayLike(v) ==> es == Entries(v)
    ensures ArrayLike(v) ==> |es| == (if Get(v, "length").n < 0 then 0 else Get(v, "length").n)
    ensures ArrayLike(v) ==> forall i :: 0 <= i < |es| ==> es[i] == (NatToString(i), Get(v, NatToString(i)))
  {
    if ArrayLike(v) then
      var n := if Get(v, "length").n < 0 then 0 else Get(v, "length").n;
      seq(n, i requires 0 <= i < n => (NatToString(i), Get(v, NatToString(i))))
    else Entries(v)
  }

  /** The values `_.each` hands to its callback, in visiting order. */
  function EachValues(v: Value): (vs: seq<Value>)
    ensures |vs| == |EachEntries(v)|
    ensures forall i :: 0 <= i < |vs| ==> vs[i] == EachEntries(v)[i].1
    ensures !ArrayLike(v) ==> vs == Values(v)
  {
    var es := EachEntries(v);
    seq(|es|, i requires 0 <= i < |es| => es[i].1)
  }

  /** The value of the first pair with key `key`, undefined when none has it. */
  function Lookup(ps: seq<(string, Value)>, key: string): Value
  {
    if ps == [] then Undefined
    else if ps[0].0 == key then ps[0].1
    else Lookup(ps[1..], key)
  }

  /** `v[key]`. */
  function Get(v: Value, key: string): Value
  {
    Lookup(Entries(v), key)
  }

  /** Assigning a property: an existing key keeps its place, a new key goes
      last. This is JavaScript's order for a key that is not integer-like. */
  function Assign(ps: seq<(string, Value)>, key: string, x: Value): seq<(string, Value)>
  {
    if ps == [] then [(key, x)]
    else if ps[0].0 == key then [(key, x)] + ps[1..]
    else [ps[0]] + Assign(ps[1..], key, x)
  }

  function KeysOf(ps: seq<(string, Value)>): (ks: seq<string>)
    ensures |ks| == |ps| && forall i :: 0 <= i < |ps| ==> ks[i] == ps[i].0
  {
    seq(|ps|, i requires 0 <= i < |ps| => ps[i].0)
  }

  /** `v[key] = x` on an object; the model drops named-property writes to
      other values. */
  function Set(v: Value, key: string, x: Value): Value
  {
    if v.Obj? then Obj(Assign(v.props, key, x)) else v
  }

  /** The pairs without any whose key is `key`, in their order. */
  function Without(ps: seq<(string, Value)>, key: string): (r: seq<(string, Value)>)
    ensures key !in KeysOf(r)
    ensures |r| <= |ps|
  {
    if ps == [] then []
    else if ps[0].0 == key then Without(ps[1..], key)
    else [ps[0]] + Without(ps[1..], key)
  }

  /** `delete v[key]` on an object. */
  function RemoveKey(v: Value, key: string): Value
  {
    if v.Obj? then Obj(Without(v.props, key)) else v
  }

  /** Reading the key just assigned gives the assigned value. */
  lemma {:induction false} LookupAssignSame(ps: seq<(string, Value)>, key: string, x: Value)
    ensures Lookup(Assign(ps, key, x), key) == x
  {
    if ps != [] && ps[0].0 != key {
      LookupAssignSame(ps[1..], key, x);
    }
  }

  /** Assigning one key leaves every other key's value as it was. */
  lemma {:induction false} LookupAssignOther(ps: seq<(string, Value)>, key: string, x: Value, other: string)
    requires other != key
    ensures Lookup(Assign(ps, key, x), other) == Lookup(ps, other)
  {
    if ps != [] && ps[0].0 != key && ps[0].0 != other {
      LookupAssignOther(ps[1..], key, x, other);
    }
  }

  /** Deleting a key leaves every other key's value as it was. */
  lemma {:induction false} LookupWithoutOther(ps: seq<(string, Value)>, key: string, other: string)
    requires other != key
    ensures Lookup(Without(ps, key), other) == Lookup(ps, other)
  {
    if ps != [] {
      LookupWithoutOther(ps[1..], key, other);
    }
  }

  /** Deleting a key makes reading it give undefined. */
  lemma {:induction false} LookupWithoutSame(ps: seq<(string, Value)>, key: string)
    ensures Lookup(Without(ps, key), key) == Undefined
  {
    if ps != [] {
      LookupWithoutSame(ps[1..], key);
    }
  }

  /** A key no pair has reads as undefined. */
  lemma {:induction false} LookupAbsent(ps: seq<(string, Value)>, key: string)
    requires key !in KeysOf(ps)
    ensures Lookup(ps, key) == Undefined
  {
    if ps != [] {
      assert KeysOf(ps[1..]) == KeysOf(ps)[1..];
      LookupAbsent(ps[1..], key);
    }
  }

  /** A key that reads as something other than undefined is one of the keys. */
  lemma {:induction false} LookupPresent(ps: seq<(string, Value)>, key: string)
    requires Lookup(ps, key) != Undefined
    ensures key in KeysOf(ps)
  {
    if key !in KeysOf(ps) {
      LookupAbsent(ps, key);
    }
  }

  /** Deleting a key no pair has changes nothing. */
  lemma {:induction false} WithoutAbsent(ps: seq<(string, Value)>, key: string)
    requires key !in KeysOf(ps)
    ensures Without(ps, key) == ps
  {
    if ps != [] {
      assert KeysOf(ps[1..]) == KeysOf(ps)[1..];
      WithoutAbsent(ps[1..], key);
      assert ps == [ps[0]] + ps[1..];
    }
  }

  /** An array's own keys are its indices, so a name that is not all
      digits reads as undefined on it. */
  lemma ArrayNamedProperty(items: seq<Value>, key: string)
    requires !AllDigits(key)
    ensures Get(Arr(items), key) == Undefined
  {
    var es := Entries(Arr(items));
    forall i | 0 <= i < |es| ensures KeysOf(es)[i] != key {
      assert KeysOf(es)[i] == NatToString(i);
    }
    LookupAbsent(es, key);
  }

  /** `String(v)`, as `+` on a string applies it; an array joins its
      elements with "," rendering null and undefined as "". */
  function ToStr(v: Value): string
  {
    match v
    case Undefined => "undefined"
    case Null => "null"
    case Bool(b) => if b then "true" else "false"
    case Num(n) => IntToString(n)
    case Str(s) => s
    case Obj(_) => "[object Object]"
    case Fn => "[function]"
    case Arr(items) =>
      Join(seq(|items|, i requires 0 <= i < |items| =>
        if items[i].Undefined? || items[i].Null? then "" else ToStr(items[i])), ",")
  }

  /** `array.join(sep)` over values. */
  function JoinValues(vs: seq<Value>, sep: string): string
  {
    Join(seq(|vs|, i requires 0 <= i < |vs| =>
      if vs[i].Undefined? || vs[i].Null? then "" else ToStr(vs[i])), sep)
  }

  /** `_.flatten(vs)`: every array, at any depth, is replaced by its
      elements. */
  function Flatten(vs: seq<Value>): seq<Value>
  {
    if vs == [] then []
    else
      (match vs[0]
       case Arr(items) => Flatten(items)
       case _ => [vs[0]])
      + Flatten(vs[1..])
  }

  /** A list in which no element is an array flattens to itself. */
  lemma {:induction false} FlattenScalars(vs: seq<Value>)
    requires forall i :: 0 <= i < |vs| ==> !vs[i].Arr?
    ensures Flatten(vs) == vs
  {
    if vs != [] {
      FlattenScalars(vs[1..]);
    }
  }

  /** Flattening distributes over concatenation. */
  lemma {:induction false} FlattenAppend(a: seq<Value>, b: seq<Value>)
    ensures Flatten(a + b) == Flatten(a) + Flatten(b)
  {
    if a == [] {
      assert a + b == b;
    } else {
      assert (a + b)[1..] == a[1..] + b;
      FlattenAppend(a[1..], b);
    }
  }
}

=== FILE: search.dfy ===
/** The full-text search statement `Table.search` builds: the columns
    (one, or several concatenated with a space between them) go into
    `to_tsvector`, and the term is the statement's only parameter, `$1`. */
module Search {
  import opened Text
  import opened Js
  import opened Sql

  const NeedColumnsMessage := "Need columns as an array and a term string"

  /** `args.columns && args.term`. */
  predicate HasColumnsAndTerm(args: Value)
  {
    Truthy(Get(args, "columns")) && Truthy(Get(args, "term"))
  }

  /** The columns as a list: an array as it is, anything else as the one
      element of a list. */
  function ColumnList(columns: Value): (cols: seq<Value>)
    ensures columns.Arr? ==> cols == columns.items
    ensures !columns.Arr? ==> cols == [columns]
  {
    if columns.Arr? then columns.items else [columns]
  }

  /** Wrapping is stable: the list of an already listed set of columns is
      that list, and a bare column is the document text on its own. */
  lemma ColumnListWrapStable(c: Value)
    ensures ColumnList(Arr(ColumnList(c))) == ColumnList(c)
    ensures !c.Arr? ==> TsVector(ColumnList(c)) == ToStr(c)
  {
  }

  /** The document text: the one column, or `concat(a, ' ',b, ...)`. */
  function TsVector(cols: seq<Value>): string
  {
    if |cols| == 1 then ToStr(cols[0]) else "concat(" + JoinValues(cols, ", ' ',") + ")"
  }

  function SearchSql(dfn: string, tsv: string): string
  {
    "select * from " + dfn + " where " + "to_tsvector(\"" + tsv + "\")" + " @@ to_tsquery($1);"
  }

  /** The statement `search` hands to the connection, or the failure it
      raises first. */
  function SearchStatement(dfn: string, args: Value): (r: Result<Statement>)
    ensures r.Err? <==> !HasColumnsAndTerm(args)
    ensures (args.Undefined? || args.Null?) ==> r == Err(TypeError)
    ensures r.Err? && !args.Undefined? && !args.Null? ==> r.error == AssertionFailed(NeedColumnsMessage)
    ensures r.Ok? ==> r.value.params == Some([Get(args, "term")]) && r.value.single == None
  {
    if args.Undefined? || args.Null? then Err(TypeError)
    else if !HasColumnsAndTerm(args) then Err(AssertionFailed(NeedColumnsMessage))
    else
      var tsv := TsVector(ColumnList(Get(args, "columns")));
      Ok(Statement(SearchSql(dfn, tsv), Some([Get(args, "term")]), None))
  }

  /** The arguments after `search` has run: once past the assertion, a
      `columns` that is not an array has been replaced by a one-element
      array holding it. */
  function SearchArgs(args: Value): Value
  {
    if !args.Undefined? && !args.Null? && HasColumnsAndTerm(args) && !Get(args, "columns").Arr?
    then Set(args, "columns", Arr([Get(args, "columns")]))
    else args
  }

  /** The rewrite of `columns` is invisible to search itself: searching
      again with the rewritten arguments builds the same statement, and a
      second rewrite changes nothing. */
  lemma SearchArgsStable(dfn: string, args: Value)
    ensures SearchStatement(dfn, SearchArgs(args)) == SearchStatement(dfn, args)
    ensures SearchArgs(SearchArgs(args)) == SearchArgs(args)
  {
    if SearchArgs(args) != args {
      var c := Get(args, "columns");
      LookupAssignSame(args.props, "columns", Arr([c]));
      LookupAssignOther(args.props, "columns", Arr([c]), "term");
      assert ColumnList(Arr([c])) == ColumnList(c);
    }
  }

  /** Text ending in `$1);` holds the one placeholder `$1`. */
  lemma SearchSqlPlaceholders(dfn: string, tsv: string)
    requires '$' !in dfn && '$' !in tsv
    ensures Placeholders(SearchSql(dfn, tsv)) == [1]
  {
    var head := "select * from " + dfn + " where " + "to_tsvector(\"" + tsv + "\")" + " @@ to_tsquery(";
    assert SearchSql(dfn, tsv) == head + Placeholder(1) + ");";
    PlaceholdersBetween(head, Placeholder(1), ");");
    PlaceholdersOfPlaceholder(1);
  }

  /** A search binds its one placeholder to the term: the statement uses
      exactly `$1` and passes exactly one parameter. */
  lemma SearchConsistent(dfn: string, args: Value)
    requires !args.Undefined? && !args.Null? && HasColumnsAndTerm(args)
    requires '$' !in dfn && '$' !in TsVector(ColumnList(Get(args, "columns")))
    ensures SearchStatement(dfn, args).Ok?
    ensures Consistent(SearchStatement(dfn, args).value)
  {
    SearchSqlPlaceholders(dfn, TsVector(ColumnList(Get(args, "columns"))));
  }
}

=== FILE: select.dfy ===
/** The SELECT statement `Table.find` builds and the single-row reduction
    `Table.findOne` applies to what comes back: missing options get their
    defaults, a bare number or UUID becomes a primary-key criterion with
    the single-row flag set, and empty criteria give no WHERE clause. */
module Select {
  import opened Text
  import opened Js
  import opened Sql

  const DefaultLimit := "1000"
  const DefaultOffset := "0"
  const AllColumns := "*"

  /** `options[key] || (options[key] = dflt)`. */
  function Defaulted(options: Value, key: string, dflt: Value): Value
  {
    if Truthy(Get(options, key)) then options else Set(options, key, dflt)
  }

  /** The options after `find` has filled in its defaults: order by the
      delimited primary key, limit 1000, offset 0, all columns. */
  function WithDefaults(options: Value, pk: string): Value
  {
    var o1 := Defaulted(options, "order", Str(Quote(pk)));
    var o2 := Defaulted(o1, "limit", Str(DefaultLimit));
    var o3 := Defaulted(o2, "offset", Str(DefaultOffset));
    Defaulted(o3, "columns", Str(AllColumns))
  }

  /** The select list: an array of columns joined with ",", any other
      truthy value as text, `*` otherwise. */
  function ColumnsText(columns: Value): string
  {
    if !Truthy(columns) then AllColumns
    else if columns.Arr? then JoinValues(columns.items, ",")
    else ToStr(columns)
  }

  /** A bare number or a UUID stands for a primary-key value. */
  predicate IsPrimaryKeyValue(conditions: Value, isUuid: Value -> bool)
  {
    conditions.Num? || isUuid(conditions)
  }

  /** The criteria `find` compiles: `{pk: value}` for a primary-key value,
      the conditions themselves otherwise. */
  function Criteria(pk: string, conditions: Value, isUuid: Value -> bool): Value
  {
    if IsPrimaryKeyValue(conditions, isUuid) then Obj([(pk, conditions)]) else conditions
  }

  function SelectSql(cols: string, dfn: string, whereText: string, order: string, limit: string, offset: string): string
  {
    "select " + cols + " from " + dfn + whereText + " order by " + order + " limit " + limit + " offset " + offset
  }

  /** The SELECT text assembled clause by clause. */
  lemma SelectSqlParts(cols: string, dfn: string, whereText: string, order: string, limit: string, offset: string)
    ensures SelectSql(cols, dfn, whereText, order, limit, offset)
         == "select " + cols + " from " + dfn + whereText + (" order by " + order) + (" limit " + limit) + (" offset " + offset)
  {
  }

  /** The WHERE text of the criteria: " " when they are empty. */
  function WhereText(crit: Value, forTable: Value -> Condition): string
  {
    if IsEmpty(crit) then " " else forTable(crit).where
  }

  /** The parameters of the criteria: undefined when they are empty. */
  function WhereParams(crit: Value, forTable: Value -> Condition): Option<seq<Value>>
  {
    if IsEmpty(crit) then None else Some(forTable(crit).params)
  }

  /** The statement `find` hands to the connection. Empty criteria give the
      WHERE text " " and an undefined parameter array, without consulting
      `Where.forTable`. */
  function FindStatement(dfn: string, pk: string, conditions: Value, options: Value,
                         isUuid: Value -> bool, forTable: Value -> Condition): (st: Statement)
    ensures st.single == Some(IsPrimaryKeyValue(conditions, isUuid))
    ensures IsEmpty(Criteria(pk, conditions, isUuid)) <==> st.params.None?
    ensures st.params.Some? ==> st.params.value == forTable(Criteria(pk, conditions, isUuid)).params
  {
    var o := WithDefaults(options, pk);
    var crit := Criteria(pk, conditions, isUuid);
    var sql := SelectSql(ColumnsText(Get(o, "columns")), dfn, WhereText(crit, forTable),
                         ToStr(Get(o, "order")), ToStr(Get(o, "limit")), ToStr(Get(o, "offset")));
    Statement(sql, WhereParams(crit, forTable), Some(IsPrimaryKeyValue(conditions, isUuid)))
  }

  /** What `find` does with its arguments: reading `options.order` of
      undefined or null options is a TypeError; any other options give
      the statement. */
  function FindResult(dfn: string, pk: string, conditions: Value, options: Value,
                      isUuid: Value -> bool, forTable: Value -> Condition): (r: Result<Statement>)
    ensures r.Err? <==> options.Undefined? || options.Null?
    ensures r.Err? ==> r.error == TypeError
  {
    if options.Undefined? || options.Null? then Err(TypeError)
    else Ok(FindStatement(dfn, pk, conditions, options, isUuid, forTable))
  }

  /** `FindStatement` in terms of the defaulted options and the criteria. */
  lemma FindStatementParts(dfn: string, pk: string, conditions: Value, options: Value,
                           isUuid: Value -> bool, forTable: Value -> Condition, o: Value, crit: Value)
    requires o == WithDefaults(options, pk) && crit == Criteria(pk, conditions, isUuid)
    ensures FindStatement(dfn, pk, conditions, options, isUuid, forTable)
         == Statement(SelectSql(ColumnsText(Get(o, "columns")), dfn, WhereText(crit, forTable),
                                ToStr(Get(o, "order")), ToStr(Get(o, "limit")), ToStr(Get(o, "offset"))),
                      WhereParams(crit, forTable), Some(IsPrimaryKeyValue(conditions, isUuid)))
  {
  }

  lemma DefaultedGet(options: Value, key: string, dflt: Value, other: string)
    requires options.Obj?
    ensures Defaulted(options, key, dflt).Obj?
    ensures Get(Defaulted(options, key, dflt), key)
         == if Truthy(Get(options, key)) then Get(options, key) else dflt
    ensures other != key ==> Get(Defaulted(options, key, dflt), other) == Get(options, other)
  {
    LookupAssignSame(options.props, key, dflt);
    if other != key {
      LookupAssignOther(options.props, key, dflt, other);
    }
  }

  /** Each of the four options keeps a truthy value the caller gave and
      gets its default otherwise; every other option is left as it was. */
  lemma WithDefaultsGet(options: Value, pk: string, key: string)
    requires options.Obj?
    ensures WithDefaults(options, pk).Obj?
    ensures Get(WithDefaults(options, pk), key) ==
      if key !in ["order", "limit", "offset", "columns"] || Truthy(Get(options, key)) then Get(options, key)
      else if key == "order" then Str(Quote(pk))
      else if key == "limit" then Str(DefaultLimit)
      else if key == "offset" then Str(DefaultOffset)
      else Str(AllColumns)
  {
    var o1 := Defaulted(options, "order", Str(Quote(pk)));
    var o2 := Defaulted(o1, "limit", Str(DefaultLimit));
    var o3 := Defaulted(o2, "offset", Str(DefaultOffset));
    DefaultedGet(options, "order", Str(Quote(pk)), key);
    DefaultedGet(o1, "limit", Str(DefaultLimit), key);
    DefaultedGet(o2, "offset", Str(DefaultOffset), key);
    DefaultedGet(o3, "columns", Str(AllColumns), key);
  }

  /** A caller's option as text, or the default when it is falsy. */
  function OrDefault(v: Value, dflt: string): string
  {
    if Truthy(v) then ToStr(v) else dflt
  }

  /** The SELECT `find` builds from the caller's own options: an array of
      columns joined with ",", and each missing option replaced by its
      default. */
  lemma FindLayout(dfn: string, pk: string, conditions: Value, options: Value,
                   isUuid: Value -> bool, forTable: Value -> Condition)
    requires options.Obj?
    ensures var c := Get(options, "columns");
      FindStatement(dfn, pk, conditions, options, isUuid, forTable).sql
      == SelectSql(if c.Arr? then JoinValues(c.items, ",") else OrDefault(c, AllColumns),
                   dfn, WhereText(Criteria(pk, conditions, isUuid), forTable),
                   OrDefault(Get(options, "order"), Quote(pk)),
                   OrDefault(Get(options, "limit"), DefaultLimit),
                   OrDefault(Get(options, "offset"), DefaultOffset))
  {
    var o := WithDefaults(options, pk);
    var crit := Criteria(pk, conditions, isUuid);
    OptionText(options, pk, "order", Quote(pk));
    OptionText(options, pk, "limit", DefaultLimit);
    OptionText(options, pk, "offset", DefaultOffset);
    ColumnsOfDefaults(options, pk);
    FindStatementParts(dfn, pk, conditions, options, isUuid, forTable, o, crit);
  }

  /** The text of a defaulted ordering or paging option. */
  lemma OptionText(options: Value, pk: string, key: string, dflt: string)
    requires options.Obj?
    requires (key == "order" && dflt == Quote(pk)) || (key == "limit" && dflt == DefaultLimit)
          || (key == "offset" && dflt == DefaultOffset)
    ensures ToStr(Get(WithDefaults(options, pk), key)) == OrDefault(Get(options, key), dflt)
  {
    WithDefaultsGet(options, pk, key);
  }

  /** The select list of the defaulted options. */
  lemma ColumnsOfDefaults(options: Value, pk: string)
    requires options.Obj?
    ensures var c := Get(options, "columns");
      ColumnsText(Get(WithDefaults(options, pk), "columns"))
      == if c.Arr? then JoinValues(c.items, ",") else OrDefault(c, AllColumns)
  {
    WithDefaultsGet(options, pk, "columns");
  }

  /** With no options given, `find` selects every column, orders by the
      delimited primary key and pages with limit 1000 and offset 0. */
  lemma FindDefaultLayout(dfn: string, pk: string, conditions: Value,
                          isUuid: Value -> bool, forTable: Value -> Condition)
    ensures var crit := Criteria(pk, conditions, isUuid);
      FindStatement(dfn, pk, conditions, Obj([]), isUuid, forTable).sql
      == SelectSql(AllColumns, dfn, WhereText(crit, forTable), Quote(pk), DefaultLimit, DefaultOffset)
  {
    EmptyOptionsDefaults(pk);
  }

  lemma EmptyOptionsDefaults(pk: string)
    ensures Get(WithDefaults(Obj([]), pk), "order") == Str(Quote(pk))
    ensures Get(WithDefaults(Obj([]), pk), "limit") == Str(DefaultLimit)
    ensures Get(WithDefaults(Obj([]), pk), "offset") == Str(DefaultOffset)
    ensures Get(WithDefaults(Obj([]), pk), "columns") == Str(AllColumns)
  {
    assert Get(Obj([]), "order") == Undefined;
    assert Get(Obj([]), "limit") == Undefined;
    assert Get(Obj([]), "offset") == Undefined;
    assert Get(Obj([]), "columns") == Undefined;
    WithDefaultsGet(Obj([]), pk, "order");
    WithDefaultsGet(Obj([]), pk, "limit");
    WithDefaultsGet(Obj([]), pk, "offset");
    WithDefaultsGet(Obj([]), pk, "columns");
  }

  /** `find(v)` with a number or UUID `v` is `find({pk: v})` with the
      single-row flag set, while `find({pk: v})` itself asks for a list. */
  lemma FindPrimaryKeyShortcut(dfn: string, pk: string, v: Value, options: Value,
                               isUuid: Value -> bool, forTable: Value -> Condition)
    requires IsPrimaryKeyValue(v, isUuid) && !isUuid(Obj([(pk, v)]))
    ensures FindStatement(dfn, pk, v, options, isUuid, forTable)
         == FindStatement(dfn, pk, Obj([(pk, v)]), options, isUuid, forTable).(single := Some(true))
    ensures FindStatement(dfn, pk, Obj([(pk, v)]), options, isUuid, forTable).single == Some(false)
    ensures FindStatement(dfn, pk, v, options, isUuid, forTable).params == Some(forTable(Obj([(pk, v)])).params)
  {
  }

  /** The texts `find` puts around the WHERE clause hold no `$`. */
  predicate PlainSelect(dfn: string, pk: string, options: Value)
  {
    var o := WithDefaults(options, pk);
    '$' !in dfn && '$' !in ColumnsText(Get(o, "columns")) && '$' !in ToStr(Get(o, "order"))
    && '$' !in ToStr(Get(o, "limit")) && '$' !in ToStr(Get(o, "offset"))
  }

  lemma SelectPlaceholders(cols: string, dfn: string, whereText: string, order: string, limit: string, offset: string)
    requires '$' !in cols && '$' !in dfn && '$' !in order && '$' !in limit && '$' !in offset
    ensures Placeholders(SelectSql(cols, dfn, whereText, order, limit, offset)) == Placeholders(whereText)
  {
    var head := "select " + cols + " from " + dfn;
    var tail := " order by " + order + " limit " + limit + " offset " + offset;
    assert '$' !in tail;
    assert SelectSql(cols, dfn, whereText, order, limit, offset) == head + whereText + tail;
    PlaceholdersBetween(head, whereText, tail);
  }

  /** `find` adds no placeholder of its own: its statement binds its
      placeholders one-to-one exactly when the compiled criteria do, and
      always when the criteria are empty. */
  lemma FindConsistentIff(dfn: string, pk: string, conditions: Value, options: Value,
                          isUuid: Value -> bool, forTable: Value -> Condition)
    requires PlainSelect(dfn, pk, options)
    ensures var crit := Criteria(pk, conditions, isUuid);
      Consistent(FindStatement(dfn, pk, conditions, options, isUuid, forTable))
      <==> (IsEmpty(crit) || Placeholders(forTable(crit).where) == Run(1, |forTable(crit).params|))
  {
    var o := WithDefaults(options, pk);
    var crit := Criteria(pk, conditions, isUuid);
    var whereText := WhereText(crit, forTable);
    SelectPlaceholders(ColumnsText(Get(o, "columns")), dfn, whereText,
                       ToStr(Get(o, "order")), ToStr(Get(o, "limit")), ToStr(Get(o, "offset")));
    if IsEmpty(crit) {
      PlaceholdersNone(" ");
    }
  }

  /** The `(err, result)` pair `findOne` passes to its callback. */
  datatype Reply = Reply(err: Value, result: Value)

  /** `findOne`'s reduction: an error gives `(err, null)`; otherwise a
      non-empty array gives its first element and anything else, an empty
      array included, passes through unchanged. */
  function FindOneResult(err: Value, results: Value): (r: Reply)
    ensures Truthy(err) <==> r.err != Null
    ensures Truthy(err) ==> r == Reply(err, Null)
    ensures !Truthy(err) ==> (r.result == results <==> !(results.Arr? && results.items != []))
    ensures !Truthy(err) && results.Arr? && results.items != [] ==> r.result == results.items[0]
  {
    if Truthy(err) then Reply(err, Null)
    else Reply(Null, if results.Arr? && |results.items| > 0 then results.items[0] else results)
  }

  /** A list of rows that are objects reduces to one of them, or stays the
      empty list when there are none: `findOne` never yields a non-empty
      list of rows. */
  lemma FindOneOfRows(rows: seq<Value>)
    requires forall i :: 0 <= i < |rows| ==> rows[i].Obj?
    ensures var r := FindOneResult(Null, Arr(rows)).result;
      (rows == [] && r == Arr([])) || (rows != [] && r == rows[0] && r.Obj?)
  {
  }

  /** `findOne(callback)` selects every row with the default paging: the
      WHERE text is " ", no parameters are passed, and a list is asked for. */
  lemma FindOneCallbackOnly(dfn: string, pk: string, isUuid: Value -> bool, forTable: Value -> Condition)
    requires !isUuid(Obj([]))
    ensures var st := FindStatement(dfn, pk, FindOneConditions(Fn), Obj([]), isUuid, forTable);
      st.params.None? && st.single == Some(false)
      && st.sql == SelectSql(AllColumns, dfn, " ", Quote(pk), DefaultLimit, DefaultOffset)
  {
    FindDefaultLayout(dfn, pk, Obj([]), isUuid, forTable);
  }

  /** `findOne` by a key-value object that matches no row: `find` asks for a
      list, the connection answers with the empty list, and that list is
      what the callback receives, not undefined. */
  lemma FindOneNoMatch(dfn: string, pk: string, key: Value, isUuid: Value -> bool, forTable: Value -> Condition)
    requires !isUuid(Obj([(pk, key)]))
    ensures FindStatement(dfn, pk, FindOneConditions(Obj([(pk, key)])), Obj([]), isUuid, forTable).single == Some(false)
    ensures FindOneResult(Null, Arr([])).result == Arr([])
    ensures FindOneResult(Null, Arr([])).result != Undefined
  {
  }

  /** `findOne`'s reduction as the callers expect it: no row gives
      undefined rather than the empty list. */
  function CorrectedFindOneResult(err: Value, results: Value): (r: Reply)
    ensures Truthy(err) <==> r.err != Null
  {
    if Truthy(err) then Reply(err, Null)
    else if results.Arr? then Reply(Null, if |results.items| > 0 then results.items[0] else Undefined)
    else Reply(Null, results)
  }

  /** Over a list of row objects the corrected reduction yields the first
      row, or undefined when there is none: never a list. */
  lemma CorrectedFindOneOfRows(rows: seq<Value>)
    requires forall i :: 0 <= i < |rows| ==> rows[i].Obj?
    ensures var r := CorrectedFindOneResult(Null, Arr(rows)).result;
      (rows == [] && r == Undefined) || (rows != [] && r == rows[0] && r.Obj?)
  {
  }

  /** The correction changes only the empty-list case. */
  lemma CorrectedFindOneAgrees(err: Value, results: Value)
    ensures CorrectedFindOneResult(err, results) == FindOneResult(err, results)
        <==> Truthy(err) || results != Arr([])
  {
  }

  /** What `findOne` passes to `find` as its conditions: a callback given in
      their place means no conditions. */
  function FindOneConditions(args: Value): (c: Value)
    ensures args.Fn? ==> IsEmpty(c) && c.Obj?
    ensures !args.Fn? ==> c == args
  {
    if args.Fn? then Obj([]) else args
  }
}

=== FILE: sql.dfy ===
/** What the Table operations hand to the connection, and how positional
    placeholders are read back out of SQL text. A placeholder is a `$`
    followed by a maximal run of decimal digits. This reading is
    conservative: it also counts a `$n` inside a quoted identifier, a
    string literal or a name such as `a$1`, which PostgreSQL does not
    treat as parameters, so the statements about placeholders require
    the surrounding identifiers to hold no `$`. */
module Sql {
  import opened Text
  import opened Js

  /** A compiled condition as `Where.forTable` returns it, and also the
      `{where, params}` part of what `ArgTypes.whereArgs` yields. */
  datatype Condition = Condition(where: string, params: seq<Value>)

  /** The triple handed to `db.query`: SQL text, the parameter array
      (None when the source passes `undefined`) and the `{single: b}`
      option (None when the source passes no options). */
  datatype Statement = Statement(sql: string, params: Option<seq<Value>>, single: Option<bool>)

  /** A synchronous failure: a thrown string, a failed `assert`, or the
      TypeError of reading a property of null or undefined. */
  datatype Error = Thrown(message: string) | AssertionFailed(message: string) | TypeError

  datatype Result<+T> = Ok(value: T) | Err(error: Error)

  /** The placeholder text for parameter `n`. */
  function Placeholder(n: nat): string
  {
    "$" + NatToString(n)
  }

  /** The length of the run of digits at the start of `s`. */
  function DigitRun(s: string): (k: nat)
    ensures k <= |s| && AllDigits(s[..k])
    ensures k < |s| ==> !IsDigit(s[k])
  {
    if |s| == 0 || !IsDigit(s[0]) then 0
    else
      var k := 1 + DigitRun(s[1..]);
      assert s[..k] == [s[0]] + s[1..][..k - 1];
      k
  }

  /** The placeholder numbers in `s`, left to right. */
  function Placeholders(s: string): seq<nat>
    decreases |s|
  {
    if |s| == 0 then []
    else if s[0] == '$' && |s| >= 2 && IsDigit(s[1]) then
      var k := DigitRun(s[1..]);
      [DigitsValue(s[1..][..k])] + Placeholders(s[1 + k..])
    else Placeholders(s[1..])
  }

  /** `lo`, `lo + 1`, ..., `lo + n - 1`. */
  function Run(lo: nat, n: nat): (r: seq<nat>)
    ensures |r| == n && forall i :: 0 <= i < n ==> r[i] == lo + i
  {
    seq(n, i requires 0 <= i < n => lo + i)
  }

  /** The parameters a statement binds; `undefined` binds none. */
  function ParamList(st: Statement): seq<Value>
  {
    if st.params.Some? then st.params.value else []
  }

  /** The statement's placeholders are exactly `$1`, ..., `$N`, in that
      order, where N is the number of parameters it binds. */
  predicate Consistent(st: Statement)
  {
    Placeholders(st.sql) == Run(1, |ParamList(st)|)
  }

  /** The placeholders of each part, one part after another. */
  function PlaceholdersEach(parts: seq<string>): seq<nat>
  {
    if parts == [] then []
    else PlaceholdersEach(parts[..|parts| - 1]) + Placeholders(parts[|parts| - 1])
  }

  /** True when a string cannot extend a digit run that precedes it. */
  predicate StartsClean(s: string) { s == [] || !IsDigit(s[0]) }

  lemma {:induction false} DigitRunAllDigits(s: string)
    requires AllDigits(s)
    ensures DigitRun(s) == |s|
  {
    if |s| > 0 {
      DigitRunAllDigits(s[1..]);
    }
  }

  lemma {:induction false} DigitRunAppend(a: string, b: string)
    requires DigitRun(a) < |a| || StartsClean(b)
    ensures DigitRun(a + b) == DigitRun(a)
  {
    if |a| == 0 {
      assert a + b == b;
    } else if IsDigit(a[0]) {
      assert (a + b)[1..] == a[1..] + b;
      DigitRunAppend(a[1..], b);
    }
  }

  /** Text without a `$` holds no placeholder. */
  lemma {:induction false} PlaceholdersNone(s: string)
    requires '$' !in s
    ensures Placeholders(s) == []
    decreases |s|
  {
    if |s| > 0 {
      PlaceholdersNone(s[1..]);
    }
  }

  /** Text without a `$` in front of another text adds no placeholder. */
  lemma {:induction false} PlaceholdersAfterPlain(a: string, b: string)
    requires '$' !in a
    ensures Placeholders(a + b) == Placeholders(b)
    decreases |a|
  {
    if |a| == 0 {
      assert a + b == b;
    } else {
      assert (a + b)[1..] == a[1..] + b;
      PlaceholdersAfterPlain(a[1..], b);
    }
  }

  /** Scanning a concatenation scans its halves one after the other,
      provided the second half does not continue a trailing digit run. */
  lemma {:induction false} PlaceholdersAppend(a: string, b: string)
    requires StartsClean(b)
    ensures Placeholders(a + b) == Placeholders(a) + Placeholders(b)
    decreases |a|
  {
    var s := a + b;
    if |a| == 0 {
      assert s == b;
    } else if a[0] == '$' && |a| >= 2 && IsDigit(a[1]) {
      PlaceholdersAppendToken(a, b);
    } else if a[0] == '$' && |a| == 1 {
      assert s[1..] == b;
      assert Placeholders(a) == [];
    } else {
      assert s[0] == a[0] && (|a| >= 2 ==> s[1] == a[1]);
      assert Placeholders(s) == Placeholders(s[1..]);
      assert Placeholders(a) == Placeholders(a[1..]);
      assert s[1..] == a[1..] + b;
      PlaceholdersAppend(a[1..], b);
    }
  }

  /** The case of `PlaceholdersAppend` where `a` starts with a placeholder. */
  lemma {:induction false} PlaceholdersAppendToken(a: string, b: string)
    requires StartsClean(b)
    requires |a| >= 2 && a[0] == '$' && IsDigit(a[1])
    ensures Placeholders(a + b) == Placeholders(a) + Placeholders(b)
    decreases |a|, 0
  {
    var k := DigitRun(a[1..]);
    var v := DigitsValue(a[1..][..k]);
    var r := a[1 + k..];
    PlaceholdersTokenAppend(a, b);
    PlaceholdersToken(a);
    PlaceholdersAppend(r, b);
    ConsAppend(Placeholders(a + b), Placeholders(a), Placeholders(r + b), Placeholders(r), Placeholders(b), v);
  }

  lemma ConsAppend(pab: seq<nat>, pa: seq<nat>, prb: seq<nat>, pr: seq<nat>, pb: seq<nat>, v: nat)
    requires pab == [v] + prb && pa == [v] + pr && prb == pr + pb
    ensures pab == pa + pb
  {
    assert [v] + (pr + pb) == ([v] + pr) + pb;
  }

  /** The scanner reads the placeholder at the start of `a` the same way
      with `b` after it, and goes on with the rest of `a` followed by `b`. */
  lemma PlaceholdersTokenAppend(a: string, b: string)
    requires StartsClean(b)
    requires |a| >= 2 && a[0] == '$' && IsDigit(a[1])
    ensures var k := DigitRun(a[1..]);
      1 + k <= |a|
      && Placeholders(a + b) == [DigitsValue(a[1..][..k])] + Placeholders(a[1 + k..] + b)
  {
    var s := a + b;
    TokenSplit(a, b);
    assert s[0] == a[0] && s[1] == a[1] && |s| >= 2;
    PlaceholdersToken(s);
  }

  /** One unfolding of the scanner at a placeholder. */
  lemma PlaceholdersToken(s: string)
    requires |s| >= 2 && s[0] == '$' && IsDigit(s[1])
    ensures var k := DigitRun(s[1..]);
      Placeholders(s) == [DigitsValue(s[1..][..k])] + Placeholders(s[1 + k..])
  {
  }

  /** The placeholder at the start of `a` is read the same with `b` after it. */
  lemma TokenSplit(a: string, b: string)
    requires StartsClean(b)
    requires |a| >= 2 && a[0] == '$' && IsDigit(a[1])
    ensures var k := DigitRun(a[1..]);
      DigitRun((a + b)[1..]) == k && 1 + k <= |a|
      && (a + b)[1..][..k] == a[1..][..k]
      && (a + b)[1 + k..] == a[1 + k..] + b
  {
    var k := DigitRun(a[1..]);
    assert (a + b)[1..] == a[1..] + b;
    DigitRunAppend(a[1..], b);
  }

  /** The placeholder text for `n` reads back as the single placeholder `n`. */
  lemma PlaceholdersOfPlaceholder(n: nat)
    ensures Placeholders(Placeholder(n)) == [n]
  {
    var s := Placeholder(n);
    var d := NatToString(n);
    assert s[1..] == d;
    DigitRunAllDigits(d);
    assert d[..|d|] == d;
    assert s[1 + |d|..] == [];
    DigitsValueOfNatToString(n);
  }

  /** The placeholders of a join are those of its parts, in order, when
      the separator holds none and no part starts with a digit. */
  lemma {:induction false} PlaceholdersJoin(parts: seq<string>, sep: string)
    requires '$' !in sep && StartsClean(sep)
    requires forall i :: 0 <= i < |parts| ==> StartsClean(parts[i])
    ensures Placeholders(Join(parts, sep)) == PlaceholdersEach(parts)
  {
    if |parts| == 1 {
      assert parts[..0] == [];
    } else if |parts| > 1 {
      var init := parts[..|parts| - 1];
      var last := parts[|parts| - 1];
      PlaceholdersJoin(init, sep);
      PlaceholdersAppend(Join(init, sep) + sep, last);
      PlaceholdersAppend(Join(init, sep), sep);
      PlaceholdersNone(sep);
    }
  }

  lemma PlaceholdersEachSnoc(parts: seq<string>, p: string)
    ensures PlaceholdersEach(parts + [p]) == PlaceholdersEach(parts) + Placeholders(p)
  {
    assert (parts + [p])[..|parts|] == parts;
  }

  lemma RunAppend(lo: nat, n: nat, m: nat)
    ensures Run(lo, n) + Run(lo + n, m) == Run(lo, n + m)
  {
  }

  /** Text between two stretches without `$` keeps exactly its own
      placeholders, when what follows cannot extend a trailing number. */
  lemma PlaceholdersBetween(a: string, w: string, b: string)
    requires '$' !in a && '$' !in b && StartsClean(b)
    ensures Placeholders(a + w + b) == Placeholders(w)
  {
    PlaceholdersBeforePlain(a + w, b);
    PlaceholdersAfterPlain(a, w);
  }

  /** Text without a `$`, not starting with a digit, after another text
      adds no placeholder. */
  lemma PlaceholdersBeforePlain(a: string, t: string)
    requires '$' !in t && StartsClean(t)
    ensures Placeholders(a + t) == Placeholders(a)
  {
    PlaceholdersAppend(a, t);
    PlaceholdersNone(t);
  }
}

=== FILE: table.dfy ===
/** The Table object: a schema-qualified table with a primary key, whose
    operations build the SQL statements handed to the connection. The
    connection itself, `Where.forTable`, `isUUID` and `ArgTypes` are not
    part of this model: `forTable` and `isUuid` are parameters, and the
    argument records `ArgTypes` produces are given directly. */
module Tables {
  import opened Text
  import opened Js
  import opened Sql
  import opened Identity
  import opened Insert
  import opened Update
  import opened Select
  import opened Search

  const SaveMessage := "Please pass in the criteria for saving as an object. This should include all fields needed to change or add. Include the primary key for an UPDATE."
  const DestroyMessage := "Please pass in the criteria for deleting. This should be in object format - {id : 1} for example"

  class Table {
    const schema: string
    const name: string
    const pk: string
    const fullname: string
    const delimitedName: string
    const delimitedSchema: string
    const delimitedFullName: string

    /** The derived names agree with schema and table name. */
    predicate Valid()
    {
      fullname == FullName(schema, name)
      && delimitedName == Quote(name)
      && delimitedSchema == Quote(schema)
      && delimitedFullName == DelimitedFullName(schema, name)
    }

    constructor (schema: string, name: string, pk: string)
      ensures this.schema == schema && this.name == name && this.pk == pk
      ensures Valid()
    {
      this.schema := schema;
      this.name := name;
      this.pk := pk;
      var full := name;
      if schema != DefaultSchema {
        full := schema + "." + name;
      }
      fullname := full;
      var dName := "\"" + name + "\"";
      var dSchema := "\"" + schema + "\"";
      delimitedName := dName;
      delimitedSchema := dSchema;
      var dFull := dName;
      if schema != DefaultSchema {
        dFull := dSchema + "." + dName;
      }
      delimitedFullName := dFull;
    }

    function PrimaryKeyName(): string
    {
      pk
    }

    /** The primary key between double quotes; removing them gives the
        key back. */
    function DelimitedPrimaryKeyName(): (r: string)
      ensures '"' !in pk ==> Unquote(r) == Some(PrimaryKeyName())
      ensures r != PrimaryKeyName()
    {
      UnquoteQuoteWhenPlain(pk);
      Quote(pk)
    }

    /** Whether one of the own keys of `args` is the primary key, plain or
        delimited. */
    function ContainsPk(args: Value): (b: bool)
      ensures b <==> (exists i :: 0 <= i < |Entries(args)| &&
                        (Entries(args)[i].0 == PrimaryKeyName() || Entries(args)[i].0 == DelimitedPrimaryKeyName()))
    {
      var keys := Keys(args);
      PrimaryKeyName() in keys || DelimitedPrimaryKeyName() in keys
    }

    /** Identifiers without `$` give a delimited name without `$`, the
        precondition the placeholder statements rest on. */
    lemma PlainDelimitedName()
      requires Valid() && '$' !in schema && '$' !in name
      ensures '$' !in delimitedFullName
    {
      QuoteAvoids(schema, '$');
      QuoteAvoids(name, '$');
    }

    /** A value that has the primary key set contains it. */
    lemma ContainsPkWhenSet(args: Value)
      requires Get(args, pk) != Undefined
      ensures ContainsPk(args)
    {
      LookupPresent(Entries(args), pk);
      var i :| 0 <= i < |Entries(args)| && KeysOf(Entries(args))[i] == pk;
      assert Entries(args)[i].0 == PrimaryKeyName();
    }

    /** `count`: the number of rows meeting the criteria, as a single row. */
    function Count(w: Condition): (st: Statement)
      ensures st.params == Some(w.params) && st.single == Some(true)
      ensures '$' !in delimitedFullName ==> Placeholders(st.sql) == Placeholders(w.where)
    {
      var head := "select COUNT(1) from " + delimitedFullName + " where ";
      PlaceholdersAround(head, w.where, "");
      assert head + w.where + "" == head + w.where;
      Statement(head + w.where, Some(w.params), Some(true))
    }

    /** `where`: every row meeting an inline condition. */
    function Where(w: Condition): (st: Statement)
      ensures st.params == Some(w.params) && st.single == None
      ensures '$' !in delimitedFullName ==> Placeholders(st.sql) == Placeholders(w.where)
    {
      var head := "select * from " + delimitedFullName + " where ";
      PlaceholdersAround(head, w.where, "");
      assert head + w.where + "" == head + w.where;
      Statement(head + w.where, Some(w.params), None)
    }

    /** `destroy`: an assertion failure unless the criteria are an object;
        otherwise a DELETE binding exactly the criteria's parameters. */
    function Destroy(args: Value, forTable: Value -> Condition): (r: Result<Statement>)
      ensures r.Err? <==> !IsObject(args)
      ensures r.Err? ==> r.error == AssertionFailed(DestroyMessage)
      ensures r.Ok? ==> r.value.params == Some(forTable(args).params) && r.value.single == None
      ensures r.Ok? && '$' !in delimitedFullName ==> Placeholders(r.value.sql) == Placeholders(forTable(args).where)
    {
      if !IsObject(args) then Err(AssertionFailed(DestroyMessage))
      else
        var w := forTable(args);
        var sql := "delete from " + delimitedFullName + w.where + " RETURNING *";
        PlaceholdersAround("delete from " + delimitedFullName, w.where, " RETURNING *");
        Ok(Statement(sql, Some(w.params), None))
    }

    /** The four `options.key || (options.key = default)` lines of `find`;
        `ok` is false when the first of them raises a TypeError, on
        undefined or null options. */
    method FillDefaults(options: Ref) returns (ok: bool)
      modifies options
      ensures ok <==> !options.value.Undefined? && !options.value.Null?
      ensures ok ==> options.value == WithDefaults(old(options.value), pk)
      ensures !ok ==> options.value == old(options.value)
    {
      if options.value.Undefined? || options.value.Null? {
        return false;
      }
      ok := true;
      ghost var o0 := options.value;
      if !Truthy(Get(options.value, "order")) {
        options.value := Set(options.value, "order", Str(Quote(pk)));
      }
      ghost var o1 := options.value;
      assert o1 == Defaulted(o0, "order", Str(Quote(pk)));
      if !Truthy(Get(options.value, "limit")) {
        options.value := Set(options.value, "limit", Str("1000"));
      }
      ghost var o2 := options.value;
      assert o2 == Defaulted(o1, "limit", Str(DefaultLimit));
      if !Truthy(Get(options.value, "offset")) {
        options.value := Set(options.value, "offset", Str("0"));
      }
      ghost var o3 := options.value;
      assert o3 == Defaulted(o2, "offset", Str(DefaultOffset));
      if !Truthy(Get(options.value, "columns")) {
        options.value := Set(options.value, "columns", Str("*"));
      }
    }

    /** `find`: fills in the caller's options object with its defaults and
        builds the SELECT, or raises a TypeError on undefined or null
        options and leaves them as they were. */
    method Find(conditions: Value, options: Ref, isUuid: Value -> bool, forTable: Value -> Condition)
      returns (r: Result<Statement>)
      modifies options
      ensures r == FindResult(delimitedFullName, pk, conditions, old(options.value), isUuid, forTable)
      ensures options.value == if r.Ok? then WithDefaults(old(options.value), pk) else old(options.value)
    {
      ghost var o0 := options.value;
      var ok := FillDefaults(options);
      if !ok {
        return Err(TypeError);
      }
      var st := SelectWith(conditions, options.value, isUuid, forTable, o0);
      r := Ok(st);
    }

    /** The statement `find` builds once `o`, the caller's options `o0`
        with their defaults filled in, is at hand. */
    method SelectWith(conditions: Value, o: Value, isUuid: Value -> bool, forTable: Value -> Condition, ghost o0: Value)
      returns (st: Statement)
      requires o == WithDefaults(o0, pk)
      ensures st == FindStatement(delimitedFullName, pk, conditions, o0, isUuid, forTable)
    {
      var cols := "*";
      var columns := Get(o, "columns");
      if Truthy(columns) {
        if columns.Arr? {
          cols := JoinValues(columns.items, ",");
        } else {
          cols := ToStr(columns);
        }
      }
      var order := " order by " + ToStr(Get(o, "order"));
      var limit := " limit " + ToStr(Get(o, "limit"));
      var offset := " offset " + ToStr(Get(o, "offset"));

      var criteria := conditions;
      var returnSingle := false;
      if criteria.Num? || isUuid(criteria) {
        criteria := Obj([(PrimaryKeyName(), criteria)]);
        returnSingle := true;
      }

      var whereText: string;
      var params: Option<seq<Value>>;
      if IsEmpty(criteria) {
        whereText := " ";
        params := None;
      } else {
        var w := forTable(criteria);
        whereText := w.where;
        params := Some(w.params);
      }
      var sql := "select " + cols + " from " + delimitedFullName + whereText + order + limit + offset;
      SelectSqlParts(cols, delimitedFullName, whereText, ToStr(Get(o, "order")), ToStr(Get(o, "limit")), ToStr(Get(o, "offset")));
      assert cols == ColumnsText(columns);
      assert criteria == Criteria(pk, conditions, isUuid);
      assert whereText == WhereText(criteria, forTable) && params == WhereParams(criteria, forTable);
      FindStatementParts(delimitedFullName, pk, conditions, o0, isUuid, forTable, o, criteria);
      st := Statement(sql, params, Some(returnSingle));
    }

    /** `findOne`: `find` with fresh options, and the reduction of what the
        connection answers (`err`, `results`) to one row. */
    method FindOne(args: Value, isUuid: Value -> bool, forTable: Value -> Condition, err: Value, results: Value)
      returns (st: Statement, reply: Reply)
      ensures st == FindStatement(delimitedFullName, pk, FindOneConditions(args), Obj([]), isUuid, forTable)
      ensures reply == FindOneResult(err, results)
    {
      var conditions := args;
      if args.Fn? {
        conditions := Obj([]);
      }
      var options := new Ref(Obj([]));
      var found := Find(conditions, options, isUuid, forTable);
      st := found.value;
      if Truthy(err) {
        reply := Reply(err, Null);
      } else {
        var result := if results.Arr? && |results.items| > 0 then results.items[0] else results;
        reply := Reply(Null, result);
      }
    }

    /** `insert`: one tuple per row, numbering the placeholders on from the
        previous rows with a running seed. */
    method Insert(data: Value) returns (r: Result<Statement>)
      ensures r == InsertStatement(delimitedFullName, data)
    {
      if !Truthy(data) {
        return Err(Thrown(NoDataMessage));
      }
      var rows := if data.Arr? then data.items else [data];
      var sql := "INSERT INTO " + delimitedFullName + " (" + Join(ColumnNames(rows), ", ") + ") VALUES\n";
      var parameters: seq<Value> := [];
      var values: seq<string> := [];
      var i := 0;
      var seed := 0;
      while i < |rows|
        invariant 0 <= i <= |rows|
        invariant seed == FieldCount(rows[..i])
        invariant values == Tuples(rows[..i])
        invariant parameters == RowValues(rows[..i])
      {
        var start := seed;
        var v;
        v, seed := NumberFields(seed, |EachEntries(rows[i])|);
        assert "(" + Join(v, ", ") + ")" == TupleText(start, Width(rows[i]));
        values := values + ["(" + Join(v, ", ") + ")"];
        parameters := parameters + [Arr(Values(rows[i]))];
        RowStep(rows, i);
        i := i + 1;
      }
      assert rows[..i] == rows;
      assert values == Tuples(rows) && parameters == RowValues(rows);
      sql := sql + Join(values, ",\n");
      sql := sql + " RETURNING *";
      assert sql == InsertSql(delimitedFullName, rows);
      r := Ok(Statement(sql, Some(Flatten(parameters)), Some(true)));
    }

    /** `update`: one SET item per field, numbered with a running seed,
        then the criteria's text. */
    method Update(fields: Value, criteria: Value, forTable: Value -> Condition) returns (r: Result<Statement>)
      ensures r == UpdateStatement(delimitedFullName, fields, criteria, forTable)
    {
      if !IsObject(fields) {
        return Err(Thrown(NotAnObjectMessage));
      }
      var f, parameters := EachField(fields);
      var parsedWhere := forTable(criteria);
      var sql := "UPDATE " + delimitedFullName + " SET " + Join(f, ", ");
      sql := sql + parsedWhere.where;
      sql := sql + " RETURNING *";
      assert sql == UpdateSql(delimitedFullName, fields, parsedWhere.where);
      r := Ok(Statement(sql, Some(parameters), None));
    }

    /** The `_.each` loop of `update`: the SET items `"key" = $seed` and
        the values, field by field, with the seed counting from 1. */
    method EachField(fields: Value) returns (f: seq<string>, parameters: seq<Value>)
      ensures f == SetItems(EachEntries(fields))
      ensures parameters == EachValues(fields)
    {
      var es := EachEntries(fields);
      parameters := [];
      f := [];
      var seed := 0;
      while seed < |es|
        invariant 0 <= seed <= |es|
        invariant f == SetItems(es[..seed])
        invariant parameters == EachValues(fields)[..seed]
      {
        var key := es[seed].0;
        var value := es[seed].1;
        SetItemsSnoc(es, seed);
        assert EachValues(fields)[..seed + 1] == EachValues(fields)[..seed] + [value];
        seed := seed + 1;
        f := f + [Quote(key) + " = " + Placeholder(seed)];
        parameters := parameters + [value];
      }
      assert es[..seed] == es;
      assert EachValues(fields)[..seed] == EachValues(fields);
    }

    /** What `save` builds: an UPDATE keyed on the primary key when `args`
        contains it, an INSERT of `args` otherwise. */
    function SaveStatement(args: Value, forTable: Value -> Condition): Result<Statement>
    {
      if !IsObject(args) then Err(AssertionFailed(SaveMessage))
      else if ContainsPk(args) then
        UpdateStatement(delimitedFullName, RemoveKey(args, pk), Obj([(pk, Get(args, pk))]), forTable)
      else InsertStatement(delimitedFullName, args)
    }

    /** The caller's object after `save`, which deletes the primary key
        from it before updating. */
    function SavedArgs(args: Value): Value
    {
      if IsObject(args) && ContainsPk(args) then RemoveKey(args, pk) else args
    }

    /** `save`, as written: the primary key is deleted from the caller's
        own object. */
    method Save(args: Ref, forTable: Value -> Condition) returns (r: Result<Statement>)
      modifies args
      ensures r == SaveStatement(old(args.value), forTable)
      ensures args.value == SavedArgs(old(args.value))
    {
      if !IsObject(args.value) {
        return Err(AssertionFailed(SaveMessage));
      }
      if ContainsPk(args.value) {
        var key := PrimaryKeyName();
        var where := Obj([(key, Get(args.value, key))]);
        args.value := RemoveKey(args.value, key);
        r := Update(args.value, where, forTable);
      } else {
        r := Insert(args.value);
      }
    }

    /** `save` on a copy of the caller's object: the same statement, and the
        caller's object keeps its primary key. */
    method SaveOnCopy(args: Value, forTable: Value -> Condition) returns (r: Result<Statement>)
      ensures r == SaveStatement(args, forTable)
    {
      if !IsObject(args) {
        return Err(AssertionFailed(SaveMessage));
      }
      if ContainsPk(args) {
        var key := PrimaryKeyName();
        var fields := RemoveKey(args, key);
        r := Update(fields, Obj([(key, Get(args, key))]), forTable);
      } else {
        r := Insert(args);
      }
    }

    /** An object with its primary key set is saved by an UPDATE of the
        row with that key, setting every other field and not the key. */
    lemma SaveUpdatesByKey(args: Value, forTable: Value -> Condition)
      requires args.Obj? && Get(args, pk) != Undefined
      ensures var fields := RemoveKey(args, pk);
        SaveStatement(args, forTable).Ok?
        && SaveStatement(args, forTable).value
           == Statement(UpdateSql(delimitedFullName, fields, forTable(Obj([(pk, Get(args, pk))])).where),
                        Some(EachValues(fields)), None)
        && pk !in Keys(fields)
        && forall k :: k != pk ==> Get(fields, k) == Get(args, k)
    {
      ContainsPkWhenSet(args);
      var fields := RemoveKey(args, pk);
      assert Keys(fields) == KeysOf(fields.props);
      forall k | k != pk ensures Get(fields, k) == Get(args, k) {
        LookupWithoutOther(args.props, pk, k);
      }
    }

    /** An object that holds only the delimited key `"pk"` is saved by an
        UPDATE whose criteria are `{pk: undefined}`, and nothing is removed
        from it. */
    lemma SaveDelimitedKeyOnly(args: Value, forTable: Value -> Condition)
      requires args.Obj? && pk !in Keys(args) && Quote(pk) in Keys(args)
      ensures SaveStatement(args, forTable)
           == UpdateStatement(delimitedFullName, args, Obj([(pk, Undefined)]), forTable)
      ensures SavedArgs(args) == args
    {
      assert Keys(args) == KeysOf(args.props);
      LookupAbsent(args.props, pk);
      WithoutAbsent(args.props, pk);
    }

    /** An object without the primary key is saved by an INSERT of that
        object as the one row. */
    lemma SaveInsertsWithoutKey(args: Value, forTable: Value -> Condition)
      requires args.Obj? && !ContainsPk(args)
      ensures SaveStatement(args, forTable).Ok?
      ensures SaveStatement(args, forTable).value
           == Statement(InsertSql(delimitedFullName, [args]), Some(Flatten(RowValues([args]))), Some(true))
      ensures SavedArgs(args) == args
    {
    }

    /** Saving the product of the update test, `{id: 4, ...}`, as written
        leaves the caller's object without its `id`, where the test expects
        it to keep `id == 4`. */
    lemma SaveClobbersPrimaryKey(forTable: Value -> Condition)
      requires pk == "id"
      ensures Get(UpdateTestProduct, "id") == Num(4)
      ensures Get(SavedArgs(UpdateTestProduct), "id") == Undefined
      ensures Get(SavedArgs(UpdateTestProduct), "name") == Str("Fender Stratocaster")
    {
      var p := UpdateTestProduct;
      assert Get(p, "id") == Num(4);
      ContainsPkWhenSet(p);
      LookupWithoutSame(p.props, "id");
      LookupWithoutOther(p.props, "id", "name");
    }

    /** `search`: rewrites a bare `columns` of the caller's arguments into a
        one-element array, then builds the full-text query. */
    method Search(args: Ref) returns (r: Result<Statement>)
      modifies args
      ensures r == SearchStatement(delimitedFullName, old(args.value))
      ensures args.value == SearchArgs(old(args.value))
    {
      var a := args.value;
      if a.Undefined? || a.Null? {
        return Err(TypeError);
      }
      if !(Truthy(Get(a, "columns")) && Truthy(Get(a, "term"))) {
        return Err(AssertionFailed(NeedColumnsMessage));
      }
      if a.Arr? {
        assert !IsDigit("columns"[0]);
        ArrayNamedProperty(a.items, "columns");
      }
      var c := Get(a, "columns");
      if !c.Arr? {
        args.value := Set(a, "columns", Arr([c]));
        LookupAssignSame(a.props, "columns", Arr([c]));
        LookupAssignOther(a.props, "columns", Arr([c]), "term");
      }
      var columns := Get(args.value, "columns").items;
      var tsv: string;
      if |columns| == 1 {
        tsv := ToStr(columns[0]);
      } else {
        tsv := "concat(" + JoinValues(columns, ", ' ',") + ")";
      }
      var sql := "select * from " + delimitedFullName + " where " + "to_tsvector(\"" + tsv + "\")";
      sql := sql + " @@ to_tsquery($1);";
      r := Ok(Statement(sql, Some([Get(args.value, "term")]), None));
    }
  }

  /** `_.map(row, () => "$" + (++seed))` over a row of `n` fields: the
      placeholders numbered on from `seed`, and the seed after them. */
  method NumberFields(seed: nat, n: nat) returns (v: seq<string>, next: nat)
    ensures v == PlaceholderTexts(seed, n) && next == seed + n
  {
    v := [];
    next := seed;
    var j := 0;
    while j < n
      invariant 0 <= j <= n
      invariant next == seed + j
      invariant v == PlaceholderTexts(seed, j)
    {
      next := next + 1;
      v := v + [Placeholder(next)];
      j := j + 1;
    }
  }

  /** The product the update test saves. */
  const UpdateTestProduct := Obj([("id", Num(4)), ("name", Str("Fender Stratocaster")),
                                  ("description", Str("Leo Fender's baby")), ("price", Num(1200)),
                                  ("tags", Arr([Str("1"), Str("2")]))])

  /** `PlaceholdersBetween` for a head that may or may not hold a `$`. */
  lemma PlaceholdersAround(a: string, w: string, b: string)
    requires '$' !in b && StartsClean(b)
    ensures '$' !in a ==> Placeholders(a + w + b) == Placeholders(w)
  {
    if '$' !in a {
      PlaceholdersBetween(a, w, b);
    }
  }

  lemma UnquoteQuoteWhenPlain(s: string)
    ensures '"' !in s ==> Unquote(Quote(s)) == Some(s)
  {
    if '"' !in s {
      UnquoteQuote(s);
    }
  }
}

=== FILE: text.dfy ===
/** Character and string helpers shared by the model: decimal digits,
    JavaScript's rendering of integers, joining, splitting and the
    double-quote delimiting of identifiers. */
module Text {

  predicate IsDigit(c: char) { '0' <= c <= '9' }

  predicate AllDigits(s: string) { forall i :: 0 <= i < |s| ==> IsDigit(s[i]) }

  function DigitChar(d: nat): (c: char)
    requires d < 10
    ensures IsDigit(c) && c as int - '0' as int == d
  {
    ('0' as int + d) as char
  }

  /** Decimal rendering of a natural number, as `String(n)` gives it. */
  function NatToString(n: nat): (s: string)
    ensures |s| >= 1 && AllDigits(s)
  {
    if n < 10 then [DigitChar(n)] else NatToString(n / 10) + [DigitChar(n % 10)]
  }

  /** Decimal rendering of an integer, with a leading '-' when negative. */
  function IntToString(i: int): (s: string)
    ensures |s| >= 1
    ensures i >= 0 ==> s == NatToString(i)
    ensures i < 0 ==> s[0] == '-' && s[1..] == NatToString(-i)
  {
    if i < 0 then "-" + NatToString(-i) else NatToString(i)
  }

  /** The number a run of decimal digits denotes. */
  function DigitsValue(s: string): nat
    requires AllDigits(s)
  {
    if |s| == 0 then 0 else 10 * DigitsValue(s[..|s| - 1]) + (s[|s| - 1] as int - '0' as int)
  }

  /** Reading back a rendered natural gives the natural. */
  lemma {:induction false} DigitsValueOfNatToString(n: nat)
    ensures DigitsValue(NatToString(n)) == n
  {
    if n >= 10 {
      var s := NatToString(n);
      assert s[..|s| - 1] == NatToString(n / 10);
      DigitsValueOfNatToString(n / 10);
    }
  }

  /** `Array.prototype.join`: the parts with `sep` between neighbours. */
  function Join(parts: seq<string>, sep: string): string
  {
    if |parts| == 0 then ""
    else if |parts| == 1 then parts[0]
    else Join(parts[..|parts| - 1], sep) + sep + parts[|parts| - 1]
  }

  /** A character occurs in a join only if it occurs in a part or in the separator. */
  lemma {:induction false} JoinAvoids(parts: seq<string>, sep: string, c: char)
    requires c !in sep
    requires forall i :: 0 <= i < |parts| ==> c !in parts[i]
    ensures c !in Join(parts, sep)
  {
    if |parts| > 1 {
      JoinAvoids(parts[..|parts| - 1], sep, c);
    }
  }

  /** `util.format('"%s"', s)`: the identifier between double quotes. */
  function Quote(s: string): (r: string)
    ensures |r| == |s| + 2 && r[0] == '"' && r[|r| - 1] == '"' && r[1..|r| - 1] == s
  {
    "\"" + s + "\""
  }

  lemma QuoteAvoids(s: string, c: char)
    requires c != '"' && c !in s
    ensures c !in Quote(s)
  {
  }

  datatype Option<+T> = None | Some(value: T)

  /** Strips one pair of delimiting double quotes from an identifier that
      holds no other double quote; the partner of `Quote`. */
  function Unquote(s: string): (r: Option<string>)
    ensures r.Some? ==> Quote(r.value) == s && '"' !in r.value
  {
    if |s| >= 2 && s[0] == '"' && s[|s| - 1] == '"' && '"' !in s[1..|s| - 1]
    then Some(s[1..|s| - 1]) else None
  }

  lemma UnquoteQuote(s: string)
    requires '"' !in s
    ensures Unquote(Quote(s)) == Some(s)
  {
    assert Quote(s)[1..|Quote(s)| - 1] == s;
  }

  /** Doubles every double quote, as a quoted PostgreSQL identifier must
      write an embedded `"` (section 4.1.1 of the PostgreSQL documentation). */
  function EscapeQuotes(s: string): (r: string)
    ensures |r| >= |s|
    ensures '"' !in s ==> r == s
  {
    if |s| == 0 then ""
    else (if s[0] == '"' then "\"\"" else [s[0]]) + EscapeQuotes(s[1..])
  }

  /** An identifier between double quotes, embedded quotes doubled. */
  function QuoteEscaped(s: string): (r: string)
    ensures '"' !in s ==> r == Quote(s)
  {
    "\"" + EscapeQuotes(s) + "\""
  }

  /** Reads the body of a quoted identifier, just after its opening
      quote: a doubled quote stands for one `"`, a single quote closes
      the identifier. Gives the identifier and the text after the
      closing quote, or None when no quote closes it. */
  function ReadQuotedBody(s: string): Option<(string, string)>
    decreases |s|
  {
    if |s| == 0 then None
    else if s[0] == '"' then
      if |s| >= 2 && s[1] == '"' then Prefixed('"', ReadQuotedBody(s[2..]))
      else Some(("", s[1..]))
    else Prefixed(s[0], ReadQuotedBody(s[1..]))
  }

  /** One more character read in front of an identifier. */
  function Prefixed(c: char, r: Option<(string, string)>): Option<(string, string)>
  {
    match r
    case Some(p) => Some(([c] + p.0, p.1))
    case None => None
  }

  lemma ReadQuotedBodyDoubled(tail: string)
    ensures ReadQuotedBody("\"\"" + tail) == Prefixed('"', ReadQuotedBody(tail))
  {
    var s := "\"\"" + tail;
    assert s[0] == '"' && s[1] == '"' && s[2..] == tail;
  }

  lemma ReadQuotedBodyPlain(c: char, tail: string)
    requires c != '"'
    ensures ReadQuotedBody([c] + tail) == Prefixed(c, ReadQuotedBody(tail))
  {
    var s := [c] + tail;
    assert s[0] == c && s[1..] == tail;
  }

  lemma ReadQuotedBodyClose(rest: string)
    requires rest == [] || rest[0] != '"'
    ensures ReadQuotedBody("\"" + rest) == Some(("", rest))
  {
    var s := "\"" + rest;
    assert s[0] == '"' && s[1..] == rest;
  }

  lemma PrefixedHead(id: string, rest: string)
    requires |id| > 0
    ensures Prefixed(id[0], Some((id[1..], rest))) == Some((id, rest))
  {
    assert [id[0]] + id[1..] == id;
  }

  lemma SeqAssoc(a: string, b: string, c: string)
    ensures (a + b) + c == a + (b + c)
  {
  }

  /** Escaping, then appending, splits off the first character. */
  lemma EscapeQuotesHead(id: string, t: string)
    requires |id| > 0
    ensures EscapeQuotes(id) + t
         == (if id[0] == '"' then "\"\"" else [id[0]]) + (EscapeQuotes(id[1..]) + t)
  {
    var h := if id[0] == '"' then "\"\"" else [id[0]];
    var e := EscapeQuotes(id[1..]);
    assert EscapeQuotes(id) == h + e;
    SeqAssoc(h, e, t);
  }

  /** Reading an escaped identifier stops at its closing quote and gives
      back the identifier, whatever quotes it holds, when the text after
      it does not start with another quote. */
  lemma {:induction false} ReadQuotedBodyEscape(id: string, rest: string)
    requires rest == [] || rest[0] != '"'
    ensures ReadQuotedBody(EscapeQuotes(id) + ("\"" + rest)) == Some((id, rest))
    decreases |id|
  {
    if |id| == 0 {
      assert EscapeQuotes(id) + ("\"" + rest) == "\"" + rest;
      ReadQuotedBodyClose(rest);
    } else {
      var tail := EscapeQuotes(id[1..]) + ("\"" + rest);
      ReadQuotedBodyEscape(id[1..], rest);
      PrefixedHead(id, rest);
      EscapeQuotesHead(id, "\"" + rest);
      if id[0] == '"' {
        ReadQuotedBodyDoubled(tail);
      } else {
        ReadQuotedBodyPlain(id[0], tail);
      }
    }
  }

  /** Splits a string at every occurrence of `c`. */
  function Split(s: string, c: char): (parts: seq<string>)
    ensures |parts| >= 1
    decreases |s|
  {
    if c !in s then [s]
    else
      var i := IndexOf(s, c);
      [s[..i]] + Split(s[i + 1..], c)
  }

  /** The position of the first occurrence of `c` in `s`. */
  function IndexOf(s: string, c: char): (i: nat)
    requires c in s
    ensures i < |s| && s[i] == c && c !in s[..i]
  {
    if s[0] == c then 0 else 1 + IndexOf(s[1..], c)
  }

  lemma {:induction false} IndexOfConcat(a: string, b: string, c: char)
    requires c !in a && c in b
    ensures IndexOf(a + b, c) == |a| + IndexOf(b, c)
    decreases |a|
  {
    if |a| > 0 {
      assert (a + b)[1..] == a[1..] + b;
      IndexOfConcat(a[1..], b, c);
    } else {
      assert a + b == b;
    }
  }

  /** Splitting `a` + separator + `b` at the separator, where `a` holds none. */
  lemma SplitAt(a: string, b: string, c: char)
    requires c !in a
    ensures Split(a + [c] + b, c) == [a] + Split(b, c)
  {
    var s := a + [c] + b;
    assert s == a + ([c] + b);
    IndexOfConcat(a, [c] + b, c);
    assert s[..|a|] == a;
    assert s[|a| + 1..] == b;
  }
}

=== FILE: update.dfy ===
/** The UPDATE statement `Table.update` builds: a SET clause numbering
    the fields `_.each` visits `$1`, ..., `$k` in visiting order (the own
    properties, or the indices of an array-like object), followed by whatever
    text `Where.forTable` produces for the criteria. Only the field values
    are passed as parameters; the criteria's parameters are not. */
module Update {
  import opened Text
  import opened Js
  import opened Sql

  const NotAnObjectMessage := "Update requires a hash of fields=>values to update to"

  /** `"key" = $n`. */
  function SetItem(key: string, n: nat): string
  {
    Quote(key) + " = " + Placeholder(n)
  }

  /** One SET item per field, numbered from 1 in field order. */
  function SetItems(es: seq<(string, Value)>): (items: seq<string>)
    ensures |items| == |es| && forall i :: 0 <= i < |es| ==> items[i] == SetItem(es[i].0, i + 1)
  {
    seq(|es|, i requires 0 <= i < |es| => SetItem(es[i].0, i + 1))
  }

  /** Numbering one more field appends its SET item. */
  lemma SetItemsSnoc(es: seq<(string, Value)>, n: nat)
    requires n < |es|
    ensures SetItems(es[..n + 1]) == SetItems(es[..n]) + [SetItem(es[n].0, n + 1)]
  {
    var p := es[..n + 1];
    var q := SetItems(es[..n]) + [SetItem(es[n].0, n + 1)];
    assert |SetItems(p)| == |q|;
    forall i | 0 <= i < |p| ensures SetItems(p)[i] == q[i] {
      assert p[i] == es[i];
    }
  }

  function UpdateSql(dfn: string, fields: Value, whereText: string): string
  {
    "UPDATE " + dfn + " SET " + Join(SetItems(EachEntries(fields)), ", ") + whereText + " RETURNING *"
  }

  /** The statement `update` hands to the connection: an error unless
      `fields` is an object, array or function; otherwise the values
      `_.each` visits, in that order, and no query options. */
  function UpdateStatement(dfn: string, fields: Value, criteria: Value, forTable: Value -> Condition): (r: Result<Statement>)
    ensures r.Err? <==> !IsObject(fields)
    ensures r.Err? ==> r.error == Thrown(NotAnObjectMessage)
    ensures r.Ok? ==> r.value.params == Some(EachValues(fields)) && r.value.single == None
  {
    if !IsObject(fields) then Err(Thrown(NotAnObjectMessage))
    else Ok(Statement(UpdateSql(dfn, fields, forTable(criteria).where), Some(EachValues(fields)), None))
  }

  /** The keys `_.each` visits hold no `$`. */
  predicate PlainKeys(v: Value)
  {
    forall i :: 0 <= i < |EachEntries(v)| ==> '$' !in EachEntries(v)[i].0
  }

  lemma SetItemPlaceholders(key: string, n: nat)
    requires '$' !in key
    ensures Placeholders(SetItem(key, n)) == [n]
    ensures StartsClean(SetItem(key, n))
  {
    QuoteAvoids(key, '$');
    assert '$' !in Quote(key) + " = ";
    PlaceholdersAfterPlain(Quote(key) + " = ", Placeholder(n));
    PlaceholdersOfPlaceholder(n);
  }

  lemma {:induction false} SetItemsEach(es: seq<(string, Value)>)
    requires forall i :: 0 <= i < |es| ==> '$' !in es[i].0
    ensures PlaceholdersEach(SetItems(es)) == Run(1, |es|)
  {
    if es != [] {
      var init := es[..|es| - 1];
      assert SetItems(es)[..|es| - 1] == SetItems(init);
      SetItemsEach(init);
      SetItemPlaceholders(es[|es| - 1].0, |es|);
      RunAppend(1, |es| - 1, 1);
    }
  }

  /** The SET clause holds `$1`, ..., `$k`, one per field, in field order. */
  lemma SetClausePlaceholders(es: seq<(string, Value)>)
    requires forall i :: 0 <= i < |es| ==> '$' !in es[i].0
    ensures Placeholders(Join(SetItems(es), ", ")) == Run(1, |es|)
  {
    var items := SetItems(es);
    forall i | 0 <= i < |items| ensures StartsClean(items[i]) {
      SetItemPlaceholders(es[i].0, i + 1);
    }
    PlaceholdersJoin(items, ", ");
    SetItemsEach(es);
  }

  /** The placeholders of the UPDATE are the SET clause's `$1`..`$k`
      followed by whatever placeholders the criteria text holds. */
  lemma UpdatePlaceholders(dfn: string, fields: Value, whereText: string)
    requires '$' !in dfn && PlainKeys(fields)
    requires StartsClean(whereText)
    ensures Placeholders(UpdateSql(dfn, fields, whereText))
         == Run(1, |EachEntries(fields)|) + Placeholders(whereText)
  {
    var head := "UPDATE " + dfn + " SET ";
    var setClause := Join(SetItems(EachEntries(fields)), ", ");
    var x := head + setClause;
    var y := x + whereText;
    PlaceholdersBeforePlain(y, " RETURNING *");
    PlaceholdersAppend(x, whereText);
    HeadPlain(dfn);
    PlaceholdersAfterPlain(head, setClause);
    SetClausePlaceholders(EachEntries(fields));
  }

  lemma HeadPlain(dfn: string)
    requires '$' !in dfn
    ensures '$' !in "UPDATE " + dfn + " SET "
  {
  }

  /** Fields with a numeric `length` and nothing else. */
  const LengthOnly := Obj([("length", Num(2))])

  /** `update({length: 2}, ...)` sets the indices `"0"` and `"1"` that
      `_.each` visits, not the `length` property, and binds two undefined
      values. */
  lemma UpdateArrayLikeFields(dfn: string, criteria: Value, forTable: Value -> Condition)
    ensures UpdateStatement(dfn, LengthOnly, criteria, forTable).Ok?
    ensures ParamList(UpdateStatement(dfn, LengthOnly, criteria, forTable).value) == [Undefined, Undefined]
    ensures SetItems(EachEntries(LengthOnly)) == [SetItem("0", 1), SetItem("1", 2)]
  {
    assert Get(LengthOnly, "length") == Num(2);
    assert NatToString(0) == "0" && NatToString(1) == "1";
    assert Get(LengthOnly, "0") == Undefined && Get(LengthOnly, "1") == Undefined;
    assert EachEntries(LengthOnly) == [("0", Undefined), ("1", Undefined)];
  }

  /** Because the criteria's parameters are dropped and the criteria are
      not numbered after the SET clause, an update binds its placeholders
      one-to-one exactly when the criteria text holds no placeholder. */
  lemma UpdateConsistentIff(dfn: string, fields: Value, criteria: Value, forTable: Value -> Condition)
    requires IsObject(fields) && '$' !in dfn && PlainKeys(fields)
    requires StartsClean(forTable(criteria).where)
    ensures UpdateStatement(dfn, fields, criteria, forTable).Ok?
    ensures Consistent(UpdateStatement(dfn, fields, criteria, forTable).value)
        <==> Placeholders(forTable(criteria).where) == []
  {
    var w := forTable(criteria).where;
    UpdatePlaceholders(dfn, fields, w);
    var k := |EachEntries(fields)|;
    if Placeholders(w) != [] {
      assert |Run(1, k) + Placeholders(w)| > k;
    }
  }

  /** An object with the one field `price`, set to `p`. */
  function PriceOnly(p: Value): Value
  {
    Obj([("price", p)])
  }

  /** Called with the criteria first, as `update({}, {price: p})`, the
      statement as written sets nothing: the text is `UPDATE t SET `
      followed directly by the WHERE text built from `{price: p}`, and no
      parameter is bound. */
  lemma UpdateCriteriaFirst(dfn: string, p: Value, forTable: Value -> Condition)
    ensures UpdateStatement(dfn, Obj([]), PriceOnly(p), forTable).Ok?
    ensures UpdateStatement(dfn, Obj([]), PriceOnly(p), forTable).value.sql
         == "UPDATE " + dfn + " SET " + forTable(PriceOnly(p)).where + " RETURNING *"
    ensures ParamList(UpdateStatement(dfn, Obj([]), PriceOnly(p), forTable).value) == []
  {
    assert EachEntries(Obj([])) == [];
  }

  /** `UpdateStatement` with its first two arguments swapped: criteria
      first, fields second, the order in which the update tests call it.
      It adds nothing else and exists only as the corrected call shape. */
  function UpdateWhere(dfn: string, criteria: Value, fields: Value, forTable: Value -> Condition): (r: Result<Statement>)
    ensures r.Err? <==> !IsObject(fields)
    ensures r.Ok? ==> r.value.params == Some(EachValues(fields))
  {
    UpdateStatement(dfn, fields, criteria, forTable)
  }

  /** With the criteria first, `update({}, {price: p})` sets the price:
      the text is `UPDATE t SET "price" = $1` followed by the WHERE text of
      the empty criteria, and `p` is bound to `$1`. */
  lemma UpdateWhereSetsPrice(dfn: string, p: Value, forTable: Value -> Condition)
    ensures UpdateWhere(dfn, Obj([]), PriceOnly(p), forTable).Ok?
    ensures UpdateWhere(dfn, Obj([]), PriceOnly(p), forTable).value.sql
         == "UPDATE " + dfn + " SET \"price\" = $1" + forTable(Obj([])).where + " RETURNING *"
    ensures ParamList(UpdateWhere(dfn, Obj([]), PriceOnly(p), forTable).value) == [p]
  {
    PriceSetClause(p);
    var w := forTable(Obj([])).where;
    assert UpdateSql(dfn, PriceOnly(p), w) == "UPDATE " + dfn + " SET \"price\" = $1" + w + " RETURNING *";
  }

  /** The one field `price` gives the SET clause `"price" = $1` and the
      parameter list `[p]`. */
  lemma PriceSetClause(p: Value)
    ensures Join(SetItems(EachEntries(PriceOnly(p))), ", ") == "\"price\" = $1"
    ensures EachValues(PriceOnly(p)) == [p]
  {
    var es := [("price", p)];
    PriceEntries(p);
    assert Placeholder(1) == "$1" by { assert NatToString(1) == "1"; }
    assert SetItems(es) == [SetItem("price", 1)];
  }

  lemma PriceEntries(p: Value)
    ensures EachEntries(PriceOnly(p)) == [("price", p)]
  {
    var es := [("price", p)];
    assert Entries(PriceOnly(p)) == es && es[1..] == [];
    assert |"price"| != |"length"|;
    assert Lookup(es, "length") == Lookup(es[1..], "length");
  }
}
